=== FILE: README.md ===
# gateways-serve, modelled in Dafny

`gateways-serve` is a command-line server for rollup storage-proof gateways.
Each rollup command (`arb1`, `op`, `base`, `linea`, `scroll`, ...) does the following:

- picks an upstream RPC endpoint for each side of a chain pair;
- configures a rollup and a gateway engine: block tag, log step size, prover
  speed, call cache and commit prefetch;
- publishes a JSON snapshot of that configuration;
- answers HTTP requests:
  - `OPTIONS`: a CORS preflight;
  - `GET /`: the snapshot;
  - `GET /head`: the latest commit;
  - `POST`: relays a read to the gateway.

This project models that logic and proves what it promises.

| file | module | models |
|---|---|---|
| `text.dfy` | `Text` | `parseInt` with no radix (white space, sign, `0x` prefix, digit run, trailing text ignored), decimal rendering of naturals, `Array.prototype.join` |
| `values.dfy` | `JsValues` | JavaScript values and the JSON-safe output, `Object.entries`, string truthiness, object assignment and spread (later key wins, first position kept, for keys that are not integer indices) |
| `utils.dfy` | `Utils` | `flattenErrors`: a loop method proved against the cause-chain specification |
| `providers.dfy` | `Providers` | the `RPC_INFO` registry, `decideProvider` as guarded returns and as an ordered rule table, `providerURL`, `parseRpcOpts`, `createProviderPair` |
| `serve.dfy` | `Serve` | `bigintToJSON`; `toJSON` as a specification function and as a loop method; the `fetch` dispatch |
| `startup.dfy` | `Startup` | `parseUint`; `serveGateway`: the rollup and gateway classes, the cache knobs, the prefetch cycle as a loop method, the served config record; the Scroll beacon URL; the GameFinder override |

External parts are parameters. The gateway engine appears as the outcomes of its calls:

- `getLatestCommit`;
- the two prover reads;
- `handleRead`.

`toUnpaddedHex` is a function parameter `hex`. Chain names and the rollup's and gateway's own properties are given as values.

The `toJSON` of src/serve.ts:93-120 is kept as written for every acyclic value (see "## Left out" for what the value model cannot express). In particular, `v.map(toJSON)` converts each array element as a record:

- a string element becomes an index-keyed record of its characters;
- a number, boolean or bigint element becomes `{}`;
- a `null` or `undefined` element makes `Object.entries` throw.

This behaviour is stated in `Serve.ElementRecords` and `Serve.ToJsonSucceeds`. It is visible only for arrays whose elements are not plain objects. Whether the served config holds such an array depends on the gateway's and the rollup's own properties, which belong to the engine and are not part of this model.

## Model

| member | source | states |
|---|---|---|
| Text.ParseInt | src/index.ts:25 | Empty or all-white-space text is NaN, and a negative result needs a minus sign in the text; its other cases are stated by the lemmas below |
| Text.ParseIntOfDecimal | src/index.ts:25 | `parseInt` of a natural written in decimal gives that natural back. This holds even with trailing text, as long as the text neither extends the digits nor turns a lone "0" into a hex prefix. |
| Text.ParseIntOfNegative | src/index.ts:25 | A leading minus negates the number, so "-0" reads as 0 |
| Text.ParseIntSignedHex | src/index.ts:25 | Leading white space, a sign and a "0x" prefix are all honoured: " -0x1F" reads as -31 |
| Text.ParseIntBareHexPrefix | src/index.ts:25 | "0x" with no digits after it is NaN |
| Text.ParseIntTrailingText | src/index.ts:25 | Text after the digits is ignored: "12px" reads as 12 |
| Text.NatToDecimalInjective | src/serve.ts:95 | Distinct array indices render as distinct entry keys, which is why the entries of a string or an array never repeat a key (`JsValues.Entries`) |
| JsValues.IndexedChars | src/serve.ts:95 | A string's entries are its characters in order, entry i keyed by the decimal text of i |
| JsValues.IndexedItems | src/serve.ts:95 | An array's entries are its elements in order, entry i keyed by the decimal text of i |
| JsValues.Entries | src/serve.ts:95 | `Object.entries` throws exactly on null and undefined. A string gives its indexed characters (`IndexedChars`), an array its indexed elements (`IndexedItems`), an object its own properties, and any other value nothing. The entries of a string or an array have distinct keys. Entries are never deeper than the value. |
| JsValues.AssignKeys | src/index.ts:256-259 | Assigning a key keeps an existing key in its place, or appends a new key last |
| JsValues.AssignLookup | src/index.ts:256-259 | After assignment the key holds the new value, and every other key keeps its value |
| JsValues.AssignUnique | src/index.ts:256-259 | Assignment keeps property names distinct |
| JsValues.SpreadLookup | src/index.ts:193-203 | After `{...ps, ...qs}`, a key of `qs` has the value from `qs` (the later spread wins); any other key keeps its value from `ps` |
| JsValues.SpreadUnique | src/index.ts:193-203 | A spread keeps property names distinct |
| Utils.Flatten | src/utils.ts:1-6 | The message starts with `String(err)`, and is exactly that when the walk stops at once; `Utils.FlattenUnfold` and `Utils.ChainOfSegments` give the rest |
| Utils.FlattenErrors | src/utils.ts:1-6 | The loop's message equals the specification `Flatten`: `String(err)`, then each cause for as long as the current value is an Error with a truthy cause, joined with " <== " |
| Utils.SegmentsShape | src/utils.ts:2-5 | The first segment is `String(err)`, and there is one segment per cause link followed, plus one |
| Utils.FlattenUnfold | src/utils.ts:3-6 | While the walk continues, the message is the outer text, " <== ", then the flattened cause; where the walk stops it is the text alone |
| Utils.NonErrorAlone | src/utils.ts:3 | A thrown non-Error is rendered alone |
| Utils.FalsyCauseEnds | src/utils.ts:3 | An absent or falsy cause ends the chain at the Error itself |
| Utils.NonErrorCauseIsLast | src/utils.ts:3-4 | A truthy non-Error cause is printed and then ends the chain |
| Utils.ChainOfSegments | src/utils.ts:1-6 | Every nonempty list of texts is the flattened message of the matching chain of Errors, in order |
| Providers.RpcInfoOf | src/providers.ts:43-334 | The registry has a row exactly for the listed chains; each row is for its own chain and has a non-empty public URL |
| Providers.Decide | src/providers.ts:340-392 | The decision keeps the chain's row, is custom exactly when the override is non-empty, and records an API key only for a keyed vendor and only when it is non-empty; `Providers.DecisionTable` gives the whole selection |
| Providers.DecideProvider | src/providers.ts:336-338 | It fails exactly for a chain outside the registry, with "unknown provider: <chain>"; otherwise the decision carries the chain's row |
| Providers.ProviderUrl | src/providers.ts:395-397 | The URL of the decision, failing exactly when the decision fails, with the same message |
| Providers.DecisionTable | src/providers.ts:342-392 | Each vendor is chosen exactly when its condition holds and no earlier one's does. The order is custom, Alchemy, Infura, DRPC, Ankr, public. The URL and key fill that vendor's template. |
| Providers.DecideIsFirstMatch | src/providers.ts:351-392 | The chain of guarded returns equals first-match evaluation of the ordered vendor rule list |
| Providers.CustomRpcWins | src/providers.ts:342-349 | A non-empty override is used verbatim, whatever keys are present |
| Providers.EmptyCustomRpcIgnored | src/providers.ts:342 | An empty override is treated as absent |
| Providers.DecideIgnoresEmptyKeys | src/providers.ts:351-390 | On any row, an empty API key selects exactly what an absent key selects |
| Providers.EmptyKeysAreAbsent | src/providers.ts:351-390 | For any chain, an empty API key selects exactly what an absent key selects |
| Providers.PublicFallback | src/providers.ts:391-392 | A listed chain with no override and no usable key gets its public URL |
| Providers.AlchemyPreferred | src/providers.ts:351-363 | On a chain that has an Alchemy slug and is not premium-only, an Alchemy key beats every other vendor |
| Providers.BscWithoutPremium | src/providers.ts:269-274 | BSC is premium-only: without the premium flag an Alchemy key is passed over for Ankr, or for the public URL when there is no Ankr key |
| Providers.BscWithPremium | src/providers.ts:351-363 | With the premium flag, BSC uses the Alchemy key on `bnb-mainnet` |
| Providers.ParseRpcOpts | src/providers.ts:405-415 | The shared keys, premium flag and timeout are copied unchanged; the override is `rpc.chain1` for side 1 and `rpc.chain2` for side 2 |
| Providers.CreateProviderPair | src/providers.ts:416-426 | It succeeds exactly when both chains are listed, with each side's URL from its own options. It otherwise fails with the message for the first unknown chain. |
| Providers.OverridesStayOnTheirSide | src/providers.ts:412 | Changing one side's override never changes the other side's URL |
| Serve.BigIntToJson | src/serve.ts:122-125 | A bigint becomes a JSON number exactly when it lies within ±(2^53 - 1), with the same value; otherwise it becomes its hex text |
| Serve.ConvertValue | src/serve.ts:96-116 | One property value: only an array or a plain object can throw, and exactly undefined, null, symbols, functions and non-plain instances are dropped |
| Serve.ConvertEntries | src/serve.ts:94-119 | The entries convert exactly when no property value throws, into a record no longer than the input |
| Serve.ToJson | src/serve.ts:93-120 | `toJSON` throws on null and undefined, and otherwise gives at most one field per entry; `Serve.ToJsonFieldRules` and `Serve.ToJsonSucceeds` give the rest |
| Serve.MapToJson | src/serve.ts:111 | A mapped array has one record per element |
| Serve.ConvertField | src/serve.ts:96-116 | The loop body for one value (the Contract test, then the switch on `typeof`, recursing for arrays and plain objects) gives exactly the specification's `ConvertValue`, including its throw |
| Serve.ToJsonLoop | src/serve.ts:93-120 | The loop's record, built entry by entry, equals the recursive specification `ToJson` (including when it throws) |
| Serve.MapToJsonLoop | src/serve.ts:110-111 | The loop mapping of array elements equals the specification `MapToJson` |
| Serve.ConvertEntriesFieldwise | src/serve.ts:94-119 | Each output field is the conversion of the input property with that key: kept values appear converted, dropped ones are absent, and no property that is present throws |
| Serve.ConvertEntriesShape | src/serve.ts:94-119 | Output keys are input keys, and the output is no longer than the input |
| Serve.ToJsonFieldRules | src/serve.ts:96-116 | Kept per kind: a contract gives its target; a bigint goes through `bigintToJSON`; a string, boolean or number is copied; an array holds `toJSON` of each element, in order; a plain object holds `toJSON` of itself. Anything else is dropped. |
| Serve.ConvertValueSucceeds | src/serve.ts:110-111 | A value throws exactly when an array reached through arrays and plain objects holds null or undefined |
| Serve.ConvertEntriesSucceeds | src/serve.ts:95-118 | A property list converts exactly when no property value throws |
| Serve.ToJsonSucceeds | src/serve.ts:95 | `toJSON(x)` returns exactly when `x` is not nullish and no array reached from its entries holds null or undefined |
| Serve.MapToJsonSucceeds | src/serve.ts:111 | An array converts exactly when every element does |
| Serve.ArrayElementsAreRecords | src/serve.ts:111 | A converted array keeps its length, and element i is `toJSON` of element i |
| Serve.StringEntries | src/serve.ts:104-108 | Properties that are all strings are copied verbatim, in order |
| Serve.ElementRecords | src/serve.ts:111 | A string element becomes an index-keyed record of its characters; a number, boolean or bigint element becomes `{}` |
| Serve.SafeIntegerExamples | src/serve.ts:122-125 | 2^53 + 1 is reported in hex, 42 as a number |
| Serve.Start | src/serve.ts:20 | The server starts exactly when the config converts; it then holds the converted config |
| Serve.Post | src/serve.ts:57-80 | POST is 200 `{data}` with CORS exactly when the body parses, is not null or undefined, and the relay returns; anything else is 500 `{message}` with no header |
| Serve.GetHead | src/serve.ts:38-52 | `GET /head` rejects exactly when the gateway call throws or its record does not convert; otherwise it is 200 with CORS |
| Serve.Fetch | src/serve.ts:23-86 | Only `GET /head` can reject; every other request gets a response |
| Serve.OptionsPreflight | src/serve.ts:25-33 | `OPTIONS` on any path is 204 with no body, allowing any origin and any header |
| Serve.StatusIsSnapshot | src/serve.ts:20-37 | `GET /` is 200 with the startup snapshot and the CORS header, the same whatever the gateway does |
| Serve.HeadReply | src/serve.ts:38-52 | `GET /head` rejects when the gateway call or the conversion throws. Otherwise it is 200 with CORS, and its JSON body has `commitIndex`, `prover`, `timestamp` and `stateRoot` holding the converted commit index, prover context and two prover reads, and no other key. |
| Serve.HeadFields | src/serve.ts:44-49 | The converted head record holds each of its four keys with the conversion of the matching commit value, and no other key |
| Serve.UnknownPathNotFound | src/serve.ts:53-55 | `GET` on any other path is 404 "file not found" with the CORS header |
| Serve.UnsupportedMethod | src/serve.ts:82-84 | Any other method is 405 "unsupported" with no CORS header |
| Serve.PostSuccess | src/serve.ts:57-73 | For any body but null and undefined (a string, number or array body relays undefined `sender` and `data`), a relayed read that returns `data` is 200 `{data}` with the CORS header, on any path |
| Serve.PostFailure | src/serve.ts:57-80 | Anything that throws inside POST is 500 `{message: flattenErrors(err)}` with no CORS header: an unreadable body, the TypeError of destructuring a null body, or a failing relay |
| Serve.PostFailureListsCauses | src/serve.ts:57-80 | When the body cannot be read or the relay throws a chain of Errors, the 500 message lists every cause, outermost first |
| Startup.ParseUint | src/index.ts:24-29 | It accepts exactly when `parseInt(s)` is an integer in [0, 2^53 - 1] and returns that value; otherwise it fails with "expected unsigned integer: s" |
| Startup.ParseUintRoundTrip | src/index.ts:24-29 | Every safe unsigned integer written in decimal is accepted as itself, even with trailing text |
| Startup.ParseUintRejectsUnsafe | src/index.ts:26-27 | Numbers above 2^53 - 1 are rejected |
| Startup.ParseUintRejectsNegative | src/index.ts:26-27 | A negative number is rejected, exactly when it is not zero; "-0" is accepted as 0 |
| Startup.Rollup.Configure | src/index.ts:144-149 | Sets the block tag and log step size, and installs a hook setting `fast` from the options and debug output off |
| Startup.Gateway.ConfigureCache | src/index.ts:152-157 | Sets the LRU size and commit depth. The cache period becomes the larger of its old value and frequency × 1000, so it never shrinks. |
| Startup.Gateway.DisableCache | src/index.ts:176-178 | Turns caching off; `serveGateway` itself assigns no knob on this branch |
| Startup.Cycles | src/index.ts:160-174 | n cycles give exactly 3n events; `Startup.CyclesShape` places each cycle |
| Startup.Cycle | src/index.ts:160-174 | One cycle is one attempt, then a fetched event exactly when the call returns (a failed one otherwise), then exactly one timer of the cache period, failed or not |
| Startup.CyclesShape | src/index.ts:160-174 | Cycle i occupies events 3i to 3i+2 of the trace, so a failure neither stops nor doubles the schedule |
| Startup.Prefetch | src/index.ts:160-174 | The loop's trace equals the specification `Cycles` for the given getLatestCommit outcomes |
| Startup.ServeGateway | src/index.ts:140-178 | Configures the rollup and creates the gateway. With the cache on, it sets the knobs and prefetches exactly when prefetch is also on. With the cache off, it only disables the cache. |
| Startup.ServedConfig | src/index.ts:193-203 | The served config is a plain object whose `beaconAPI` is undefined, whatever the spreads bring; `Startup.ServedConfigLookup` gives every other key |
| Startup.ServedConfigLookup | src/index.ts:190-204 | `beaconAPI` is undefined. Any other key takes the rollup's value, else the gateway's, else the literal's own. Keys stay distinct. |
| Startup.SnapshotHidesBeaconApi | src/index.ts:202 | The published snapshot never has `beaconAPI` |
| Startup.SnapshotDropsStartDate | src/index.ts:197 | `since: new Date()` is a class instance and is dropped from the snapshot, unless the gateway or rollup has its own `since` |
| Startup.SnapshotReportsSettings | src/index.ts:198-199 | The snapshot's `prefetch` is `cache && prefetch` and its `timeout` is the RPC timeout, unless the gateway or rollup has a property of that name |
| Startup.BeaconUrl | src/index.ts:281-297 | A non-empty `--beacon-url` is used as given. Otherwise derivation succeeds exactly for Mainnet or Sepolia with a non-empty DRPC key, and failure is the "required option" exit. |
| Startup.DerivedBeaconUrls | src/index.ts:284-295 | The derived URL is the DRPC REST root, the key, then `eth-beacon-chain` (Mainnet) or `eth-beacon-chain-sepolia` (Sepolia) |
| Startup.WithGameFinder | src/index.ts:256-259 | A given `--game-finder` wins even when it is empty (`??` only skips an absent value); otherwise the base value stays. Every other field and the key order are unchanged. |

## Left out

- `createProvider` (src/providers.ts:399-403) builds an ethers `FetchRequest` and a `GatewayProvider` and sets their timeout. Those are foreign library objects, so only the URL they are built on is modelled.
- `console.log` and `console.error` output, including the per-request timing and history log and the RPC debug event logging (src/index.ts:179-189), is left out.
- The Bun listener and the port are left out. So are Commander's option declarations, help text and help styling (src/index.ts:31-138) and the command registrations (src/index.ts:207-330).
- `process.exit(1)` is modelled as the `Err` of `Startup.BeaconUrl`.
- The gateway engine (`getLatestCommit`, the prover reads, `handleRead`, `disableCache`'s internals) is external. Its results are parameters, and `disableCache` is modelled only as turning caching off.
- Startup.Gateway.DisableCache frames the LRU size, commit depth and cache period as unchanged only because the engine's own `disableCache()` is not modelled; the real call may reset them. So `Startup.ServeGateway`'s cache-off knob values mean only that `serveGateway` itself assigns none.
- `toUnpaddedHex` and `chainName` are external. They are a function parameter and given strings.
- The `CHAINS` ids are external: the registry's chains are named constructors, and every other id is `Unlisted`.
- Timers are not modelled. The prefetch cycle is modelled for a finite number of cycles, with the outcome of each `getLatestCommit` given.
- A `setTimeout` delay above 2^31 - 1 ms, which the runtime turns into 1 ms, is not modelled.
- Floating point is not modelled. Numbers are reals, NaN and Infinity are not represented, and `frequency * 1000` is exact.
- `Startup.ParseUint` returns an exact integer. `parseInt` of a very long digit string rounds to a double, but any such value above 2^53 - 1 is rejected anyway, so the outcome is the same.
- `Object.entries` of a string splits it into UTF-16 code units, while a Dafny `char` is a Unicode scalar value. A character outside the Basic Multilingual Plane in a string array element gives two entries in JavaScript and one in `JsValues.Entries`.
- `parseInt` is modelled for ASCII white space only; the Unicode space characters it also skips are not modelled.
- Cyclic `cause` chains, where `flattenErrors` would not terminate, cannot be built from the `Thrown` datatype.
- The exact texts of engine TypeErrors are constants standing for the runtime's message.
- The content-type header that `Response.json` adds is not modelled.
- The `__proto__` key, getters and symbol-keyed properties are not modelled for any value `toJSON` converts: the served config, the `/head` record and the values nested in them. Assigning `info["__proto__"]` in src/serve.ts:97-113 sets the record's prototype instead of adding a field; the model adds a field.
- JsValues.Assign and JsValues.Spread keep insertion order for every key. JavaScript lists integer-index keys ("0", "1", ...) first and in ascending order, so for such keys the model's key order differs. The one assignment modelled, of `GameFinder`, is not such a key; the engine's own properties spread into the served config are parameters and may be.
- Serve.ToJson: a value is a finite tree, so cyclic object graphs (an object that reaches itself, such as `a.self = a`) cannot be built. On such a graph `toJSON` recurses until the runtime throws a RangeError, which the model does not express.
- The library `flattenErrors` that src/serve.ts imports is taken to behave like src/utils.ts.
- A listed chain renders in `ChainText` by its CHAINS name rather than its id. That text is only used in the unknown-provider message, which a listed chain never produces.
- src/test.ts is a network integration harness and is not part of this model.
- The `--min-age-blocks` and `--min-age-sec` options use plain `parseInt` and are passed to the engine. They are not part of this model.

=== FILE: providers.dfy ===
/**
 * RPC endpoint selection: the per-chain registry of known vendors, the
 * first-match decision that picks one upstream URL for a chain and a set of
 * credentials, and the split of one flat option bag into per-side options.
 */
module Providers {
  import opened Text
  import opened JsValues

  /** One registry row: the public URL and the vendor slugs that serve the chain. */
  datatype RpcInfo = RpcInfo(
    chain: Chain,
    rpc: string,
    ankr: Option<string>,
    infura: Option<string>,
    alchemy: Option<string>,
    alchemyPremium: bool,
    drpc: Option<string>)

  /** The chains of the registry, by their CHAINS names. */
  datatype Chain =
    | Mainnet
    | Sepolia
    | Holesky
    | Op
    | OpSepolia
    | Base
    | BaseSepolia
    | Arb1
    | ArbNova
    | Arb1Sepolia
    | Scroll
    | ScrollSepolia
    | Taiko
    | TaikoHekla
    | Zksync
    | ZksyncSepolia
    | PolygonPos
    | PolygonAmoy
    | Zkevm
    | ZkevmCardona
    | Linea
    | LineaSepolia
    | Fraxtal
    | Zora
    | Blast
    | Mantle
    | Mode
    | Cyber
    | CyberSepolia
    | Redstone
    | Shape
    | Bsc
    | OpBnb
    | CeloAlfajores
    | World
    | WorldSepolia
    | Ape
    | Zero
    | ZeroSepolia
    | InkSepolia
    | UnichainSepolia
    | Morph
    | Unlisted(id: nat)  // any other chain id; the listed chains are never given one

  /** How `${chain}` renders in a message: the chain id (a listed chain never reaches one). */
  function ChainText(c: Chain): string {
    match c
    case Unlisted(id) => NatToDecimal(id)
    case Mainnet => "MAINNET"
    case Sepolia => "SEPOLIA"
    case Holesky => "HOLESKY"
    case Op => "OP"
    case OpSepolia => "OP_SEPOLIA"
    case Base => "BASE"
    case BaseSepolia => "BASE_SEPOLIA"
    case Arb1 => "ARB1"
    case ArbNova => "ARB_NOVA"
    case Arb1Sepolia => "ARB1_SEPOLIA"
    case Scroll => "SCROLL"
    case ScrollSepolia => "SCROLL_SEPOLIA"
    case Taiko => "TAIKO"
    case TaikoHekla => "TAIKO_HEKLA"
    case Zksync => "ZKSYNC"
    case ZksyncSepolia => "ZKSYNC_SEPOLIA"
    case PolygonPos => "POLYGON_POS"
    case PolygonAmoy => "POLYGON_AMOY"
    case Zkevm => "ZKEVM"
    case ZkevmCardona => "ZKEVM_CARDONA"
    case Linea => "LINEA"
    case LineaSepolia => "LINEA_SEPOLIA"
    case Fraxtal => "FRAXTAL"
    case Zora => "ZORA"
    case Blast => "BLAST"
    case Mantle => "MANTLE"
    case Mode => "MODE"
    case Cyber => "CYBER"
    case CyberSepolia => "CYBER_SEPOLIA"
    case Redstone => "REDSTONE"
    case Shape => "SHAPE"
    case Bsc => "BSC"
    case OpBnb => "OP_BNB"
    case CeloAlfajores => "CELO_ALFAJORES"
    case World => "WORLD"
    case WorldSepolia => "WORLD_SEPOLIA"
    case Ape => "APE"
    case Zero => "ZERO"
    case ZeroSepolia => "ZERO_SEPOLIA"
    case InkSepolia => "INK_SEPOLIA"
    case UnichainSepolia => "UNICHAIN_SEPOLIA"
    case Morph => "MORPH"
  }

  /** `RPC_INFO.get(chain)`. */
  function RpcInfoOf(c: Chain): (r: Option<RpcInfo>)
    ensures r.Some? <==> !c.Unlisted?
    ensures r.Some? ==> r.value.chain == c && r.value.rpc != ""
  {
    match c
    case Mainnet => Some(RpcInfo(Mainnet, "https://rpc.ankr.com/eth/", ankr := Some("eth"), infura := Some("mainnet"), alchemy := Some("eth-mainnet"), alchemyPremium := false, drpc := Some("ethereum")))
    case Sepolia => Some(RpcInfo(Sepolia, "https://rpc.ankr.com/eth_sepolia/", ankr := Some("eth_sepolia"), infura := Some("sepolia"), alchemy := Some("eth-sepolia"), alchemyPremium := false, drpc := Some("sepolia")))
    case Holesky => Some(RpcInfo(Holesky, "https://rpc.ankr.com/eth_holesky/", ankr := Some("eth_holesky"), infura := Some("holesky"), alchemy := Some("eth-holesky"), alchemyPremium := false, drpc := None))
    case Op => Some(RpcInfo(Op, "https://mainnet.optimism.io", ankr := Some("optimism"), infura := Some("optimism-mainnet"), alchemy := Some("opt-mainnet"), alchemyPremium := false, drpc := Some("optimism")))
    case OpSepolia => Some(RpcInfo(OpSepolia, "https://sepolia.optimism.io", ankr := Some("optimism_sepolia"), infura := Some("optimism-sepolia"), alchemy := Some("opt-sepolia"), alchemyPremium := false, drpc := Some("optimism-sepolia")))
    case Base => Some(RpcInfo(Base, "https://mainnet.base.org", ankr := None, infura := None, alchemy := Some("base-mainnet"), alchemyPremium := false, drpc := Some("base")))
    case BaseSepolia => Some(RpcInfo(BaseSepolia, "https://sepolia.base.org", ankr := Some("base_sepolia"), infura := Some("base-sepolia"), alchemy := None, alchemyPremium := false, drpc := Some("base-sepolia")))
    case Arb1 => Some(RpcInfo(Arb1, "https://arb1.arbitrum.io/rpc", ankr := Some("arbitrum"), infura := Some("arbitrum-mainnet"), alchemy := Some("arb-mainnet"), alchemyPremium := false, drpc := Some("arbitrum")))
    case ArbNova => Some(RpcInfo(ArbNova, "https://nova.arbitrum.io/rpc", ankr := Some("arbitrumnova"), infura := None, alchemy := Some("arbnova-mainnet"), alchemyPremium := false, drpc := None))
    case Arb1Sepolia => Some(RpcInfo(Arb1Sepolia, "https://sepolia-rollup.arbitrum.io/rpc", ankr := Some("arbitrum_sepolia"), infura := Some("arbitrum-sepolia"), alchemy := Some("arb-sepolia"), alchemyPremium := false, drpc := Some("arbitrum-sepolia")))
    case Scroll => Some(RpcInfo(Scroll, "https://rpc.scroll.io", ankr := Some("scroll"), infura := Some("scroll-mainnet"), alchemy := None, alchemyPremium := false, drpc := Some("scroll")))
    case ScrollSepolia => Some(RpcInfo(ScrollSepolia, "https://sepolia-rpc.scroll.io", ankr := Some("scroll_sepolia_testnet"), infura := Some("scroll-sepolia"), alchemy := None, alchemyPremium := false, drpc := Some("scroll-sepolia")))
    case Taiko => Some(RpcInfo(Taiko, "https://rpc.mainnet.taiko.xyz", ankr := Some("taiko"), infura := None, alchemy := None, alchemyPremium := false, drpc := None))
    case TaikoHekla => Some(RpcInfo(TaikoHekla, "https://rpc.hekla.taiko.xyz", ankr := Some("taiko_hekla"), infura := None, alchemy := None, alchemyPremium := false, drpc := None))
    case Zksync => Some(RpcInfo(Zksync, "https://mainnet.era.zksync.io", ankr := Some("zksync_era"), infura := Some("zksync-mainnet"), alchemy := Some("zksync-mainnet"), alchemyPremium := false, drpc := None))
    case ZksyncSepolia => Some(RpcInfo(ZksyncSepolia, "https://sepolia.era.zksync.dev", ankr := Some("zksync_era_sepolia"), infura := Some("zksync-sepolia"), alchemy := Some("zksync-sepolia"), alchemyPremium := false, drpc := None))
    case PolygonPos => Some(RpcInfo(PolygonPos, "https://polygon-rpc.com/", ankr := Some("polygon"), infura := Some("polygon-mainnet"), alchemy := Some("polygon-mainnet"), alchemyPremium := false, drpc := None))
    case PolygonAmoy => Some(RpcInfo(PolygonAmoy, "https://rpc-amoy.polygon.technology/", ankr := Some("polygon_amoy"), infura := Some("polygon-amoy"), alchemy := Some("polygon-amoy"), alchemyPremium := false, drpc := None))
    case Zkevm => Some(RpcInfo(Zkevm, "https://zkevm-rpc.com", ankr := Some("polygon_zkevm"), infura := None, alchemy := Some("polygonzkevm-mainnet"), alchemyPremium := false, drpc := None))
    case ZkevmCardona => Some(RpcInfo(ZkevmCardona, "https://rpc.cardona.zkevm-rpc.com", ankr := Some("polygon_zkevm_cardona"), infura := None, alchemy := Some("polygonzkevm-cardona"), alchemyPremium := false, drpc := None))
    case Linea => Some(RpcInfo(Linea, "https://rpc.linea.build", ankr := None, infura := Some("linea-mainnet"), alchemy := None, alchemyPremium := false, drpc := Some("linea")))
    case LineaSepolia => Some(RpcInfo(LineaSepolia, "https://rpc.sepolia.linea.build", ankr := None, infura := Some("linea-sepolia"), alchemy := None, alchemyPremium := false, drpc := Some("linea-sepolia")))
    case Fraxtal => Some(RpcInfo(Fraxtal, "https://rpc.frax.com", ankr := None, infura := None, alchemy := None, alchemyPremium := false, drpc := None))
    case Zora => Some(RpcInfo(Zora, "https://rpc.zora.energy", ankr := None, infura := None, alchemy := Some("zora-mainnet"), alchemyPremium := false, drpc := None))
    case Blast => Some(RpcInfo(Blast, "https://rpc.blast.io", ankr := Some("blast"), infura := Some("blast-mainnet"), alchemy := Some("blast-mainnet"), alchemyPremium := false, drpc := None))
    case Mantle => Some(RpcInfo(Mantle, "https://rpc.mantle.xyz", ankr := None, infura := None, alchemy := None, alchemyPremium := false, drpc := None))
    case Mode => Some(RpcInfo(Mode, "https://mainnet.mode.network/", ankr := None, infura := None, alchemy := None, alchemyPremium := false, drpc := None))
    case Cyber => Some(RpcInfo(Cyber, "https://cyber.alt.technology/", ankr := None, infura := None, alchemy := None, alchemyPremium := false, drpc := None))
    case CyberSepolia => Some(RpcInfo(CyberSepolia, "https://cyber-testnet.alt.technology/", ankr := None, infura := None, alchemy := None, alchemyPremium := false, drpc := None))
    case Redstone => Some(RpcInfo(Redstone, "https://rpc.redstonechain.com", ankr := None, infura := None, alchemy := None, alchemyPremium := false, drpc := None))
    case Shape => Some(RpcInfo(Shape, "https://mainnet.shape.network", ankr := None, infura := None, alchemy := Some("shape-mainnet"), alchemyPremium := false, drpc := None))
    case Bsc => Some(RpcInfo(Bsc, "https://bsc-dataseed.bnbchain.org", ankr := Some("bsc"), infura := None, alchemy := Some("bnb-mainnet"), alchemyPremium := true, drpc := None))
    case OpBnb => Some(RpcInfo(OpBnb, "https://opbnb-mainnet-rpc.bnbchain.org", ankr := None, infura := Some("opbnb-mainnet"), alchemy := None, alchemyPremium := false, drpc := None))
    case CeloAlfajores => Some(RpcInfo(CeloAlfajores, "https://alfajores-forno.celo-testnet.org", ankr := None, infura := None, alchemy := None, alchemyPremium := false, drpc := None))
    case World => Some(RpcInfo(World, "https://worldchain-mainnet.g.alchemy.com/public", ankr := None, infura := None, alchemy := Some("worldchain-mainnet"), alchemyPremium := false, drpc := None))
    case WorldSepolia => Some(RpcInfo(WorldSepolia, "https://worldchain-sepolia.g.alchemy.com/public", ankr := None, infura := None, alchemy := Some("worldchain-sepolia"), alchemyPremium := false, drpc := None))
    case Ape => Some(RpcInfo(Ape, "https://rpc.apechain.com/http", ankr := None, infura := None, alchemy := None, alchemyPremium := false, drpc := None))
    case Zero => Some(RpcInfo(Zero, "https://rpc.zerion.io/v1/zero", ankr := None, infura := None, alchemy := None, alchemyPremium := false, drpc := None))
    case ZeroSepolia => Some(RpcInfo(ZeroSepolia, "https://rpc.zerion.io/v1/zero-sepolia", ankr := None, infura := None, alchemy := None, alchemyPremium := false, drpc := None))
    case InkSepolia => Some(RpcInfo(InkSepolia, "https://rpc-qnd-sepolia.inkonchain.com", ankr := None, infura := None, alchemy := None, alchemyPremium := false, drpc := None))
    case UnichainSepolia => Some(RpcInfo(UnichainSepolia, "https://sepolia.unichain.org", ankr := None, infura := None, alchemy := Some("unichain-sepolia"), alchemyPremium := false, drpc := None))
    case Morph => Some(RpcInfo(Morph, "https://rpc-quicknode-holesky.morphl2.io", ankr := None, infura := None, alchemy := None, alchemyPremium := false, drpc := None))
    case Unlisted(_) => None
  }

  /** The per-side credentials `decideProvider` reads. */
  datatype RpcOpts = RpcOpts(
    drpcKey: Option<string>,
    infuraKey: Option<string>,
    alchemyKey: Option<string>,
    alchemyPremium: Option<bool>,
    ankrKey: Option<string>,
    customRpc: Option<string>,
    timeout: nat)

  datatype Vendor = Custom | Alchemy | Infura | Drpc | Ankr | Public

  /** The chosen endpoint; `apiKey` is the key substituted into a vendor URL. */
  datatype Decision = Decision(info: RpcInfo, vendor: Vendor, url: string, apiKey: Option<string>)

  // URL templates of the four vendors.

  function AlchemyUrl(slug: string, key: string): string {
    "https://" + slug + ".g.alchemy.com/v2/" + key
  }

  function InfuraUrl(slug: string, key: string): string {
    "https://" + slug + ".infura.io/v3/" + key
  }

  function DrpcUrl(slug: string, key: string): string {
    "https://lb.drpc.org/ogrpc?network=" + slug + "&dkey=" + key
  }

  function AnkrUrl(slug: string, key: string): string {
    "https://rpc.ankr.com/" + slug + "/" + key
  }

  // When each vendor may serve: the chain has its slug and a truthy key was
  // supplied; Alchemy also needs the premium flag on a premium-only chain.

  predicate AlchemyApplies(info: RpcInfo, opts: RpcOpts) {
    TruthyString(info.alchemy) && TruthyString(opts.alchemyKey) && (!info.alchemyPremium || opts.alchemyPremium == Some(true))
  }

  predicate InfuraApplies(info: RpcInfo, opts: RpcOpts) {
    TruthyString(info.infura) && TruthyString(opts.infuraKey)
  }

  predicate DrpcApplies(info: RpcInfo, opts: RpcOpts) {
    TruthyString(info.drpc) && TruthyString(opts.drpcKey)
  }

  predicate AnkrApplies(info: RpcInfo, opts: RpcOpts) {
    TruthyString(info.ankr) && TruthyString(opts.ankrKey)
  }

  /** The guarded early returns of `decideProvider`, once the chain's row is known. */
  function Decide(info: RpcInfo, opts: RpcOpts): (d: Decision)
    ensures d.info == info
    ensures d.vendor == Custom <==> TruthyString(opts.customRpc)
    ensures d.apiKey.Some? ==> d.apiKey.value != "" && d.vendor !in {Custom, Public}
  {
    if TruthyString(opts.customRpc) then
      Decision(info, Custom, opts.customRpc.value, None)
    else if info.alchemy.Some? && info.alchemy.value != "" && TruthyString(opts.alchemyKey)
            && (!info.alchemyPremium || opts.alchemyPremium == Some(true)) then
      var apiKey := opts.alchemyKey.value;
      Decision(info, Alchemy, "https://" + info.alchemy.value + ".g.alchemy.com/v2/" + apiKey, Some(apiKey))
    else if info.infura.Some? && info.infura.value != "" && TruthyString(opts.infuraKey) then
      var apiKey := opts.infuraKey.value;
      Decision(info, Infura, "https://" + info.infura.value + ".infura.io/v3/" + apiKey, Some(apiKey))
    else if info.drpc.Some? && info.drpc.value != "" && TruthyString(opts.drpcKey) then
      var apiKey := opts.drpcKey.value;
      Decision(info, Drpc, "https://lb.drpc.org/ogrpc?network=" + info.drpc.value + "&dkey=" + apiKey, Some(apiKey))
    else if info.ankr.Some? && info.ankr.value != "" && TruthyString(opts.ankrKey) then
      var apiKey := opts.ankrKey.value;
      Decision(info, Ankr, "https://rpc.ankr.com/" + info.ankr.value + "/" + apiKey, Some(apiKey))
    else
      Decision(info, Public, info.rpc, None)
  }

  /** `decideProvider(chain, rpcOpts)`: throws `unknown provider: <chain>` for a chain not in the registry. */
  function DecideProvider(chain: Chain, opts: RpcOpts): (r: Result<Decision, string>)
    ensures r.Err? <==> RpcInfoOf(chain).None?
    ensures r.Err? ==> r.error == "unknown provider: " + ChainText(chain)
    ensures r.Ok? ==> r.value.info == RpcInfoOf(chain).value
  {
    match RpcInfoOf(chain)
    case None => Err("unknown provider: " + ChainText(chain))
    case Some(info) => Ok(Decide(info, opts))
  }

  /** `providerURL(chain, opts)`: the URL of the decision. */
  function ProviderUrl(chain: Chain, opts: RpcOpts): (r: Result<string, string>)
    ensures r.Ok? <==> DecideProvider(chain, opts).Ok?
    ensures r.Ok? ==> r.value == DecideProvider(chain, opts).value.url
    ensures r.Err? ==> r.error == DecideProvider(chain, opts).error
  {
    match DecideProvider(chain, opts)
    case Err(e) => Err(e)
    case Ok(d) => Ok(d.url)
  }

  /**
   * The decision table: the vendor chosen is the first, in the order custom,
   * Alchemy, Infura, DRPC, Ankr, public, whose condition holds, and its URL
   * is that vendor's template filled with the chain's slug and the key.
   */
  lemma DecisionTable(info: RpcInfo, opts: RpcOpts)
    ensures var d := Decide(info, opts);
      && d.info == info
      && (d.vendor == Custom <==> TruthyString(opts.customRpc))
      && (d.vendor == Alchemy <==> !TruthyString(opts.customRpc) && AlchemyApplies(info, opts))
      && (d.vendor == Infura <==> !TruthyString(opts.customRpc) && !AlchemyApplies(info, opts)
                                  && InfuraApplies(info, opts))
      && (d.vendor == Drpc <==> !TruthyString(opts.customRpc) && !AlchemyApplies(info, opts)
                                && !InfuraApplies(info, opts) && DrpcApplies(info, opts))
      && (d.vendor == Ankr <==> !TruthyString(opts.customRpc) && !AlchemyApplies(info, opts)
                                && !InfuraApplies(info, opts) && !DrpcApplies(info, opts)
                                && AnkrApplies(info, opts))
      && (d.vendor == Public <==> !TruthyString(opts.customRpc) && !AlchemyApplies(info, opts)
                                  && !InfuraApplies(info, opts) && !DrpcApplies(info, opts)
                                  && !AnkrApplies(info, opts))
      && (d.vendor == Custom ==> d.url == opts.customRpc.value && d.apiKey == None)
      && (d.vendor == Alchemy ==> d.url == AlchemyUrl(info.alchemy.value, opts.alchemyKey.value)
                                  && d.apiKey == opts.alchemyKey)
      && (d.vendor == Infura ==> d.url == InfuraUrl(info.infura.value, opts.infuraKey.value)
                                 && d.apiKey == opts.infuraKey)
      && (d.vendor == Drpc ==> d.url == DrpcUrl(info.drpc.value, opts.drpcKey.value)
                               && d.apiKey == opts.drpcKey)
      && (d.vendor == Ankr ==> d.url == AnkrUrl(info.ankr.value, opts.ankrKey.value)
                               && d.apiKey == opts.ankrKey)
      && (d.vendor == Public ==> d.url == info.rpc && d.apiKey == None)
  {
  }

  // The same selection written as data: an ordered list of vendor rules,
  // evaluated first-match.

  const VendorOrder: seq<Vendor> := [Alchemy, Infura, Drpc, Ankr]

  /** One vendor's rule: its decision when its condition holds. */
  function Rule(v: Vendor, info: RpcInfo, opts: RpcOpts): Option<Decision> {
    match v
    case Alchemy =>
      if AlchemyApplies(info, opts) then
        Some(Decision(info, Alchemy, AlchemyUrl(info.alchemy.value, opts.alchemyKey.value), opts.alchemyKey))
      else None
    case Infura =>
      if InfuraApplies(info, opts) then
        Some(Decision(info, Infura, InfuraUrl(info.infura.value, opts.infuraKey.value), opts.infuraKey))
      else None
    case Drpc =>
      if DrpcApplies(info, opts) then
        Some(Decision(info, Drpc, DrpcUrl(info.drpc.value, opts.drpcKey.value), opts.drpcKey))
      else None
    case Ankr =>
      if AnkrApplies(info, opts) then
        Some(Decision(info, Ankr, AnkrUrl(info.ankr.value, opts.ankrKey.value), opts.ankrKey))
      else None
    case _ => None
  }

  function FirstMatch(rules: seq<Vendor>, info: RpcInfo, opts: RpcOpts): Decision {
    if rules == [] then Decision(info, Public, info.rpc, None)
    else match Rule(rules[0], info, opts)
      case Some(d) => d
      case None => FirstMatch(rules[1..], info, opts)
  }

  function DecideByTable(info: RpcInfo, opts: RpcOpts): Decision {
    if TruthyString(opts.customRpc) then Decision(info, Custom, opts.customRpc.value, None)
    else FirstMatch(VendorOrder, info, opts)
  }

  lemma FirstMatchStep(v: Vendor, rest: seq<Vendor>, info: RpcInfo, opts: RpcOpts)
    ensures FirstMatch([v] + rest, info, opts)
            == if Rule(v, info, opts).Some? then Rule(v, info, opts).value else FirstMatch(rest, info, opts)
  {
    assert ([v] + rest)[1..] == rest;
  }

  /** The guarded returns and the ordered rule list choose the same endpoint. */
  lemma DecideIsFirstMatch(info: RpcInfo, opts: RpcOpts)
    ensures Decide(info, opts) == DecideByTable(info, opts)
  {
    FirstMatchStep(Alchemy, [Infura, Drpc, Ankr], info, opts);
    FirstMatchStep(Infura, [Drpc, Ankr], info, opts);
    FirstMatchStep(Drpc, [Ankr], info, opts);
    FirstMatchStep(Ankr, [], info, opts);
    assert VendorOrder == [Alchemy] + [Infura, Drpc, Ankr];
  }

  /** A truthy override is used verbatim, whatever keys are present. */
  lemma CustomRpcWins(chain: Chain, opts: RpcOpts)
    requires !chain.Unlisted? && TruthyString(opts.customRpc)
    ensures DecideProvider(chain, opts) == Ok(Decision(RpcInfoOf(chain).value, Custom, opts.customRpc.value, None))
  {
  }

  /** An empty-string override is ignored, as if it were absent. */
  lemma EmptyCustomRpcIgnored(chain: Chain, opts: RpcOpts)
    requires opts.customRpc == Some("")
    ensures DecideProvider(chain, opts) == DecideProvider(chain, opts.(customRpc := None))
  {
    if RpcInfoOf(chain).Some? {
      EmptyCustomRpcDecides(RpcInfoOf(chain).value, opts);
    }
  }

  lemma EmptyCustomRpcDecides(info: RpcInfo, opts: RpcOpts)
    requires opts.customRpc == Some("")
    ensures Decide(info, opts) == Decide(info, opts.(customRpc := None))
  {
  }

  /** The options with every empty-string key replaced by an absent one. */
  function WithoutEmptyKeys(opts: RpcOpts): RpcOpts {
    opts.(
      alchemyKey := if opts.alchemyKey == Some("") then None else opts.alchemyKey,
      infuraKey := if opts.infuraKey == Some("") then None else opts.infuraKey,
      drpcKey := if opts.drpcKey == Some("") then None else opts.drpcKey,
      ankrKey := if opts.ankrKey == Some("") then None else opts.ankrKey)
  }

  lemma DecideIgnoresEmptyKeys(info: RpcInfo, opts: RpcOpts)
    ensures Decide(info, opts) == Decide(info, WithoutEmptyKeys(opts))
  {
    var c := WithoutEmptyKeys(opts);
    assert TruthyString(opts.alchemyKey) == TruthyString(c.alchemyKey) && TruthyString(opts.infuraKey) == TruthyString(c.infuraKey);
    assert TruthyString(opts.drpcKey) == TruthyString(c.drpcKey) && TruthyString(opts.ankrKey) == TruthyString(c.ankrKey);
    assert TruthyString(opts.alchemyKey) ==> opts.alchemyKey == c.alchemyKey;
    assert TruthyString(opts.infuraKey) ==> opts.infuraKey == c.infuraKey;
    assert TruthyString(opts.drpcKey) ==> opts.drpcKey == c.drpcKey;
    assert TruthyString(opts.ankrKey) ==> opts.ankrKey == c.ankrKey;
  }

  /** An empty API key counts as no key at all. */
  lemma EmptyKeysAreAbsent(chain: Chain, opts: RpcOpts)
    ensures DecideProvider(chain, opts) == DecideProvider(chain, WithoutEmptyKeys(opts))
  {
    if RpcInfoOf(chain).Some? {
      DecideIgnoresEmptyKeys(RpcInfoOf(chain).value, opts);
    }
  }

  /** A listed chain always gets an endpoint: with no override and no usable key, its public URL. */
  lemma PublicFallback(chain: Chain, opts: RpcOpts)
    requires !chain.Unlisted?
    requires !TruthyString(opts.customRpc) && !TruthyString(opts.alchemyKey) && !TruthyString(opts.infuraKey)
    requires !TruthyString(opts.drpcKey) && !TruthyString(opts.ankrKey)
    ensures DecideProvider(chain, opts) == Ok(Decision(RpcInfoOf(chain).value, Public, RpcInfoOf(chain).value.rpc, None))
  {
  }

  /** Alchemy outranks every other vendor on a chain that does not need premium access. */
  lemma AlchemyPreferred(chain: Chain, opts: RpcOpts)
    requires RpcInfoOf(chain).Some? && TruthyString(RpcInfoOf(chain).value.alchemy)
    requires !RpcInfoOf(chain).value.alchemyPremium
    requires !TruthyString(opts.customRpc) && TruthyString(opts.alchemyKey)
    ensures DecideProvider(chain, opts).Ok?
    ensures DecideProvider(chain, opts).value.vendor == Alchemy
    ensures DecideProvider(chain, opts).value.url
            == AlchemyUrl(RpcInfoOf(chain).value.alchemy.value, opts.alchemyKey.value)
  {
  }

  /**
   * BSC needs premium Alchemy access: without the premium flag an Alchemy key
   * is passed over, and selection falls through to Ankr or the public URL.
   */
  lemma BscWithoutPremium(opts: RpcOpts)
    requires !TruthyString(opts.customRpc) && TruthyString(opts.alchemyKey) && opts.alchemyPremium != Some(true)
    ensures DecideProvider(Bsc, opts).Ok?
    ensures DecideProvider(Bsc, opts).value.vendor == (if TruthyString(opts.ankrKey) then Ankr else Public)
    ensures DecideProvider(Bsc, opts).value.url
            == (if TruthyString(opts.ankrKey) then AnkrUrl("bsc", opts.ankrKey.value) else "https://bsc-dataseed.bnbchain.org")
  {
  }

  /** With the premium flag, BSC does use the Alchemy key. */
  lemma BscWithPremium(opts: RpcOpts)
    requires !TruthyString(opts.customRpc) && TruthyString(opts.alchemyKey) && opts.alchemyPremium == Some(true)
    ensures DecideProvider(Bsc, opts) == Ok(Decision(RpcInfoOf(Bsc).value, Alchemy,
      AlchemyUrl("bnb-mainnet", opts.alchemyKey.value), opts.alchemyKey))
  {
  }

  /** The flat option bag, with the two per-side overrides `rpc.chain1` and `rpc.chain2`. */
  datatype InputRpcOpts = InputRpcOpts(
    drpcKey: Option<string>,
    infuraKey: Option<string>,
    alchemyKey: Option<string>,
    alchemyPremium: Option<bool>,
    ankrKey: Option<string>,
    chain1: Option<string>,
    chain2: Option<string>,
    timeout: nat)

  /** Which side of the chain pair, `1 | 2`. */
  type PairIndex = i: int | i == 1 || i == 2 witness 1

  /** `parseRpcOpts(rpcOpts, pairIndex)`: shared keys copied, the override of side `pairIndex`. */
  function ParseRpcOpts(input: InputRpcOpts, pairIndex: PairIndex): (r: RpcOpts)
    ensures r.drpcKey == input.drpcKey && r.infuraKey == input.infuraKey
    ensures r.alchemyKey == input.alchemyKey && r.alchemyPremium == input.alchemyPremium
    ensures r.ankrKey == input.ankrKey && r.timeout == input.timeout
    ensures r.customRpc == (if pairIndex == 1 then input.chain1 else input.chain2)
  {
    RpcOpts(
      drpcKey := input.drpcKey,
      infuraKey := input.infuraKey,
      alchemyKey := input.alchemyKey,
      alchemyPremium := input.alchemyPremium,
      ankrKey := input.ankrKey,
      customRpc := if pairIndex == 1 then input.chain1 else input.chain2,
      timeout := input.timeout)
  }

  datatype ChainPair = ChainPair(chain1: Chain, chain2: Chain)

  /** The URLs the two providers are built on (the client objects themselves are not modelled). */
  datatype ProviderPair = ProviderPair(url1: string, url2: string)

  /**
   * `createProviderPair(pair, rpcOpts)`: side 1 from `chain1` with override
   * `rpc.chain1`, then side 2 from `chain2` with `rpc.chain2`; the first
   * selection that throws is the error.
   */
  function CreateProviderPair(pair: ChainPair, input: InputRpcOpts): (r: Result<ProviderPair, string>)
    ensures r.Ok? <==> !pair.chain1.Unlisted? && !pair.chain2.Unlisted?
    ensures r.Ok? ==> r.value.url1 == ProviderUrl(pair.chain1, ParseRpcOpts(input, 1)).value
    ensures r.Ok? ==> r.value.url2 == ProviderUrl(pair.chain2, ParseRpcOpts(input, 2)).value
    ensures r.Err? ==>
      r.error == "unknown provider: " + ChainText(if pair.chain1.Unlisted? then pair.chain1 else pair.chain2)
  {
    match ProviderUrl(pair.chain1, ParseRpcOpts(input, 1))
    case Err(e) => Err(e)
    case Ok(url1) =>
      match ProviderUrl(pair.chain2, ParseRpcOpts(input, 2))
      case Err(e) => Err(e)
      case Ok(url2) => Ok(ProviderPair(url1, url2))
  }

  /** Each side's override reaches only its own side: side 1 never sees `rpc.chain2`, and the reverse. */
  lemma OverridesStayOnTheirSide(pair: ChainPair, input: InputRpcOpts, other: Option<string>)
    ensures CreateProviderPair(pair, input).Ok? ==>
      CreateProviderPair(pair, input.(chain2 := other)).value.url1 == CreateProviderPair(pair, input).value.url1
    ensures CreateProviderPair(pair, input).Ok? ==>
      CreateProviderPair(pair, input.(chain1 := other)).value.url2 == CreateProviderPair(pair, input).value.url2
  {
  }
}

=== FILE: serve.dfy ===
/**
 * The HTTP serving layer: the JSON-safe conversion `toJSON` (with
 * `bigintToJSON`), and the request dispatch of `fetch` over an abstract
 * gateway whose calls either return a value or throw.
 */
module Serve {
  import opened Text
  import opened JsValues
  import opened Utils

  /**
   * `bigintToJSON(x)`: the number itself when it is a safe integer, and
   * `toUnpaddedHex(x)` otherwise. `hex` stands for `toUnpaddedHex`.
   */
  function BigIntToJson(x: int, hex: int -> string): (r: Json)
    ensures r.JNum? || r.JStr?
    ensures r.JNum? <==> -MaxSafeInteger <= x <= MaxSafeInteger
    ensures r.JNum? ==> r.n == x as real
    ensures r.JStr? ==> r.s == hex(x)
  {
    if -MaxSafeInteger <= x <= MaxSafeInteger then JNum(x as real) else JStr(hex(x))
  }

  /** What the loop body of `toJSON` does with one property value. */
  datatype Converted = Keep(json: Json) | Drop | Throw

  /**
   * One property value: a Contract becomes its target; a bigint goes through
   * `bigintToJSON`; strings, booleans and numbers are kept; an array maps
   * `toJSON` over its elements; a plain object is converted recursively;
   * everything else (undefined, null, symbols, functions, other class
   * instances) is dropped.
   */
  function ConvertValue(v: Value, hex: int -> string): (r: Converted)
    ensures r.Throw? ==> v.Array? || (v.Object? && v.kind.PlainObject?)
    ensures r.Drop? <==> v.Undefined? || v.Null? || v.Symbol? || v.Function? || (v.Object? && v.kind.OtherInstance?)
    decreases Depth(v), 0
  {
    match v
    case Object(ContractHandle(target), _) => Keep(JStr(target))
    case BigInt(i) => Keep(BigIntToJson(i, hex))
    case Str(s) => Keep(JStr(s))
    case Bool(b) => Keep(JBool(b))
    case Num(n) => Keep(JNum(n))
    case Array(items) =>
      (match MapToJson(items, hex)
       case None => Throw
       case Some(records) => Keep(JArray(records)))
    case Object(PlainObject, props) =>
      (match ConvertEntries(props, hex)
       case None => Throw
       case Some(fields) => Keep(JObject(fields)))
    case _ => Drop
  }

  /** The loop of `toJSON` over the entries, in order; None when a conversion throws. */
  function ConvertEntries(es: seq<Prop>, hex: int -> string): (r: Option<seq<Field>>)
    ensures r.Some? <==> forall i :: 0 <= i < |es| ==> !ConvertValue(es[i].value, hex).Throw?
    ensures r.Some? ==> |r.value| <= |es|
    decreases PropsDepth(es), 1, |es|
  {
    if es == [] then Some([])
    else
      match ConvertValue(es[0].value, hex)
      case Throw => None
      case Drop => ConvertEntries(es[1..], hex)
      case Keep(j) => Then([Field(es[0].key, j)], ConvertEntries(es[1..], hex))
  }

  /** `toJSON(x)`: converts the entries of `x`; None when it throws a TypeError. */
  function ToJson(x: Value, hex: int -> string): (r: Option<seq<Field>>)
    ensures x.Undefined? || x.Null? ==> r.None?
    ensures r.Some? ==> |r.value| <= |Entries(x).value|
    decreases Depth(x), 2
  {
    match Entries(x)
    case None => None
    case Some(es) => ConvertEntries(es, hex)
  }

  /** `items.map(toJSON)`: every element is converted as a record. */
  function MapToJson(items: seq<Value>, hex: int -> string): (r: Option<seq<seq<Field>>>)
    ensures r.Some? ==> |r.value| == |items|
    decreases ItemsDepth(items), 3, |items|
  {
    if items == [] then Some([])
    else
      match ToJson(items[0], hex)
      case None => None
      case Some(record) =>
        (match MapToJson(items[1..], hex)
         case None => None
         case Some(records) => Some([record] + records))
  }

  /** `prefix` followed by what the rest produced, or the throw of the rest. */
  function Then<T>(prefix: seq<T>, rest: Option<seq<T>>): Option<seq<T>> {
    match rest
    case None => None
    case Some(fs) => Some(prefix + fs)
  }

  /**
   * src/serve.ts `toJSON`: a loop over `Object.entries(x)` that fills a fresh
   * record, recursing into plain objects and mapping itself over arrays.
   * None stands for the TypeError that `Object.entries` throws on an array
   * element that is null or undefined.
   */
  method ToJsonLoop(x: Value, hex: int -> string) returns (info: Option<seq<Field>>)
    ensures info == ToJson(x, hex)
    decreases Depth(x), 2
  {
    var entries := Entries(x);
    if entries.None? {
      return None;
    }
    var es := entries.value;
    var fields: seq<Field> := [];
    var i := 0;
    assert es[0..] == es;
    ThenEmpty(ConvertEntries(es, hex));
    while i < |es|
      invariant 0 <= i <= |es|
      invariant Then(fields, ConvertEntries(es[i..], hex)) == ConvertEntries(es, hex)
    {
      var k, v := es[i].key, es[i].value;
      assert es[i..][0] == es[i] && es[i..][1..] == es[i + 1..];
      ghost var rest := ConvertEntries(es[i + 1..], hex);
      var c := ConvertField(v, hex);
      if c.Throw? {
        return None;
      } else if c.Keep? {
        ThenAppend(fields, Field(k, c.json), rest);
        fields := fields + [Field(k, c.json)];
      }
      i := i + 1;
    }
    assert es[|es|..] == [] && fields + [] == fields;
    return Some(fields);
  }

  /**
   * The body of the loop of `toJSON` for one value: a Contract first, then
   * the switch on `typeof`, recursing for arrays and plain objects.
   */
  method ConvertField(v: Value, hex: int -> string) returns (c: Converted)
    ensures c == ConvertValue(v, hex)
    decreases Depth(v), if v.Array? || v.Object? then 3 else 1
  {
    match v {
      case Object(ContractHandle(target), _) =>
        c := Keep(JStr(target));
      case BigInt(n) =>
        c := Keep(BigIntToJson(n, hex));
      case Str(s) =>
        c := Keep(JStr(s));
      case Bool(b) =>
        c := Keep(JBool(b));
      case Num(n) =>
        c := Keep(JNum(n));
      case Array(items) =>
        var records := MapToJsonLoop(items, hex);
        c := if records.None? then Throw else Keep(JArray(records.value));
      case Object(PlainObject, _) =>
        var nested := ToJsonLoop(v, hex);
        c := if nested.None? then Throw else Keep(JObject(nested.value));
      case _ =>
        c := Drop;
    }
  }

  lemma ThenEmpty<T>(r: Option<seq<T>>)
    ensures Then([], r) == r
  {
    if r.Some? {
      assert [] + r.value == r.value;
    }
  }

  lemma ThenAppend<T>(prefix: seq<T>, f: T, rest: Option<seq<T>>)
    ensures Then(prefix + [f], rest) == Then(prefix, Then([f], rest))
  {
    if rest.Some? {
      assert prefix + [f] + rest.value == prefix + ([f] + rest.value);
    }
  }

  /** `items.map(toJSON)`, element by element. */
  method MapToJsonLoop(items: seq<Value>, hex: int -> string) returns (r: Option<seq<seq<Field>>>)
    ensures r == MapToJson(items, hex)
    decreases ItemsDepth(items), 3
  {
    var records: seq<seq<Field>> := [];
    var j := 0;
    assert items[0..] == items;
    ThenEmpty(MapToJson(items, hex));
    while j < |items|
      invariant 0 <= j <= |items|
      invariant Then(records, MapToJson(items[j..], hex)) == MapToJson(items, hex)
    {
      assert items[j..][0] == items[j] && items[j..][1..] == items[j + 1..];
      var record := ToJsonLoop(items[j], hex);
      if record.None? {
        return None;
      }
      ghost var rest := MapToJson(items[j + 1..], hex);
      if rest.Some? {
        assert records + [record.value] + rest.value == records + ([record.value] + rest.value);
      }
      records := records + [record.value];
      j := j + 1;
    }
    assert items[|items|..] == [] && records + [] == records;
    return Some(records);
  }

  // What `toJSON` promises.

  lemma {:induction false} LookupMissing(ps: seq<Prop>, k: string)
    requires forall i :: 0 <= i < |ps| ==> ps[i].key != k
    ensures Lookup(ps, k) == None
    decreases |ps|
  {
    if ps != [] {
      LookupMissing(ps[1..], k);
    }
  }

  /** The value a key gets in the output, given its value in the input. */
  function Converts(v: Option<Value>, hex: int -> string): Option<Json> {
    match v
    case None => None
    case Some(x) => if ConvertValue(x, hex).Keep? then Some(ConvertValue(x, hex).json) else None
  }

  /** A converted record has only keys of the input, and is no longer than it. */
  lemma {:induction false} ConvertEntriesShape(es: seq<Prop>, hex: int -> string)
    requires ConvertEntries(es, hex).Some?
    ensures forall i :: 0 <= i < |ConvertEntries(es, hex).value| ==> ConvertEntries(es, hex).value[i].key in Keys(es)
    ensures |ConvertEntries(es, hex).value| <= |es|
    decreases |es|
  {
    if es != [] {
      var tail := es[1..];
      assert Keys(es) == [es[0].key] + Keys(tail);
      ConvertEntriesShape(tail, hex);
      var fs' := ConvertEntries(tail, hex).value;
      var c := ConvertValue(es[0].value, hex);
      assert c.Drop? ==> ConvertEntries(es, hex) == ConvertEntries(tail, hex);
      assert c.Keep? ==> ConvertEntries(es, hex).value == [Field(es[0].key, c.json)] + fs';
    }
  }

  /**
   * Key by key, a converted record holds exactly the input keys whose values
   * are kept, each with its converted value; a key that is present never throws.
   */
  lemma {:induction false} ConvertEntriesFieldwise(es: seq<Prop>, hex: int -> string, k: string)
    requires UniqueKeys(Keys(es))
    requires ConvertEntries(es, hex).Some?
    ensures LookupField(ConvertEntries(es, hex).value, k) == Converts(Lookup(es, k), hex)
    ensures Lookup(es, k).Some? ==> !ConvertValue(Lookup(es, k).value, hex).Throw?
    decreases |es|
  {
    if es != [] {
      var tail := es[1..];
      assert Keys(es) == [es[0].key] + Keys(tail);
      ConvertEntriesFieldwise(tail, hex, k);
      var fs' := ConvertEntries(tail, hex).value;
      if k == es[0].key {
        LookupMissing(tail, k);
      }
      var c := ConvertValue(es[0].value, hex);
      assert c.Drop? ==> ConvertEntries(es, hex) == ConvertEntries(tail, hex);
      assert c.Keep? ==> ConvertEntries(es, hex).value == [Field(es[0].key, c.json)] + fs';
    }
  }

  /**
   * The rules of `toJSON` for one key of a record: a Contract becomes its
   * target; a bigint goes through `bigintToJSON`; a string, boolean or number
   * is copied under the same key; undefined, null, symbols, functions and
   * instances of other classes are left out; an array or plain object is
   * present with its converted contents. No key appears that the input lacks.
   */
  lemma ToJsonFieldRules(x: Value, hex: int -> string, k: string)
    requires x.Object? && UniqueKeys(Keys(x.props))
    requires ToJson(x, hex).Some?
    ensures var out := LookupField(ToJson(x, hex).value, k);
      match Lookup(x.props, k)
      case None => out == None
      case Some(v) =>
        && (v.Object? && v.kind.ContractHandle? ==> out == Some(JStr(v.kind.target)))
        && (v.BigInt? ==> out == Some(BigIntToJson(v.i, hex)))
        && (v.Str? ==> out == Some(JStr(v.s)))
        && (v.Bool? ==> out == Some(JBool(v.b)))
        && (v.Num? ==> out == Some(JNum(v.n)))
        && (v.Undefined? || v.Null? || v.Symbol? || v.Function? ==> out == None)
        && (v.Object? && v.kind.OtherInstance? ==> out == None)
        && (v.Array? ==>
              && out.Some? && out.value.JArray? && |out.value.records| == |v.items|
              && forall i :: 0 <= i < |v.items| ==> ToJson(v.items[i], hex) == Some(out.value.records[i]))
        && (v.Object? && v.kind.PlainObject? ==>
              ToJson(v, hex).Some? && out == Some(JObject(ToJson(v, hex).value)))
  {
    ConvertEntriesFieldwise(x.props, hex, k);
    var v := Lookup(x.props, k);
    if v.Some? && v.value.Array? {
      ArrayElementsAreRecords(v.value.items, hex);
    }
  }

  /**
   * `toJSON(x)` completes: `Object.entries` accepts `x`, and no array reached
   * from its entries through arrays and plain objects holds null or undefined.
   */
  ghost predicate RecordSafe(x: Value)
    decreases Depth(x), 1
  {
    Entries(x).Some? && forall i :: 0 <= i < |Entries(x).value| ==> NoNullishElement(Entries(x).value[i].value)
  }

  ghost predicate NoNullishElement(v: Value)
    decreases Depth(v), 0
  {
    match v
    case Array(items) => forall i :: 0 <= i < |items| ==> RecordSafe(items[i])
    case Object(kind, props) => kind.PlainObject? ==> forall i :: 0 <= i < |props| ==> NoNullishElement(props[i].value)
    case _ => true
  }

  lemma {:induction false} ConvertValueSucceeds(v: Value, hex: int -> string)
    ensures ConvertValue(v, hex).Throw? <==> !NoNullishElement(v)
    decreases Depth(v), 0
  {
    match v
    case Array(items) =>
      MapToJsonSucceeds(items, hex);
    case Object(kind, props) =>
      if kind.PlainObject? {
        ConvertEntriesSucceeds(props, hex);
      }
    case _ =>
  }

  lemma {:induction false} ConvertEntriesSucceeds(es: seq<Prop>, hex: int -> string)
    ensures ConvertEntries(es, hex).Some? <==> forall i :: 0 <= i < |es| ==> NoNullishElement(es[i].value)
    decreases PropsDepth(es), 1, |es|
  {
    if es != [] {
      ConvertValueSucceeds(es[0].value, hex);
      ConvertEntriesSucceeds(es[1..], hex);
      assert forall i :: 1 <= i < |es| ==> es[i] == es[1..][i - 1];
    }
  }

  /** `toJSON` throws exactly when an array it walks holds an element `Object.entries` rejects. */
  lemma {:induction false} ToJsonSucceeds(x: Value, hex: int -> string)
    ensures ToJson(x, hex).Some? <==> RecordSafe(x)
    decreases Depth(x), 2
  {
    if Entries(x).Some? {
      ConvertEntriesSucceeds(Entries(x).value, hex);
    }
  }

  lemma {:induction false} MapToJsonSucceeds(items: seq<Value>, hex: int -> string)
    ensures MapToJson(items, hex).Some? <==> forall i :: 0 <= i < |items| ==> RecordSafe(items[i])
    decreases ItemsDepth(items), 3, |items|
  {
    if items != [] {
      ToJsonSucceeds(items[0], hex);
      MapToJsonSucceeds(items[1..], hex);
      assert forall i :: 1 <= i < |items| ==> items[i] == items[1..][i - 1];
    }
  }

  /** Each array element is converted on its own, as a record, in order. */
  lemma {:induction false} ArrayElementsAreRecords(items: seq<Value>, hex: int -> string)
    requires MapToJson(items, hex).Some?
    ensures |MapToJson(items, hex).value| == |items|
    ensures forall i :: 0 <= i < |items| ==> ToJson(items[i], hex) == Some(MapToJson(items, hex).value[i])
    decreases |items|
  {
    if items != [] {
      ArrayElementsAreRecords(items[1..], hex);
      assert forall i :: 1 <= i < |items| ==> items[i] == items[1..][i - 1];
    }
  }

  lemma {:induction false} StringEntries(ps: seq<Prop>, hex: int -> string)
    requires forall i :: 0 <= i < |ps| ==> ps[i].value.Str?
    ensures ConvertEntries(ps, hex).Some? && |ConvertEntries(ps, hex).value| == |ps|
    ensures forall i :: 0 <= i < |ps| ==> ConvertEntries(ps, hex).value[i] == Field(ps[i].key, JStr(ps[i].value.s))
    decreases |ps|
  {
    if ps != [] {
      StringEntries(ps[1..], hex);
      assert forall i :: 1 <= i < |ps| ==> ps[i] == ps[1..][i - 1];
    }
  }

  /**
   * As an array element, a string becomes a record of its characters keyed
   * "0", "1", ..., and a number, boolean or bigint becomes the empty record.
   */
  lemma ElementRecords(v: Value, hex: int -> string)
    ensures v.Str? ==> ToJson(v, hex).Some? && |ToJson(v, hex).value| == |v.s|
    ensures v.Str? ==> forall i :: 0 <= i < |v.s| ==> ToJson(v, hex).value[i] == Field(NatToDecimal(i), JStr([v.s[i]]))
    ensures v.Num? || v.Bool? || v.BigInt? ==> ToJson(v, hex) == Some([])
  {
    if v.Str? {
      StringEntries(Entries(v).value, hex);
    }
  }

  /** The two numbers either side of the safe-integer bound. */
  lemma SafeIntegerExamples(hex: int -> string)
    ensures ToJson(Object(PlainObject, [Prop("a", BigInt(9007199254740993))]), hex)
            == Some([Field("a", JStr(hex(9007199254740993)))])
    ensures ToJson(Object(PlainObject, [Prop("a", BigInt(42))]), hex) == Some([Field("a", JNum(42.0))])
  {
    var big := [Prop("a", BigInt(9007199254740993))];
    assert big[1..] == [];
    assert ConvertValue(BigInt(9007199254740993), hex) == Keep(JStr(hex(9007199254740993)));
    assert ConvertEntries(big, hex) == Then([Field("a", JStr(hex(9007199254740993)))], ConvertEntries([], hex));
    assert [Field("a", JStr(hex(9007199254740993)))] + [] == [Field("a", JStr(hex(9007199254740993)))];
    assert Entries(Object(PlainObject, big)) == Some(big);
    var small := [Prop("a", BigInt(42))];
    assert small[1..] == [];
    assert ConvertValue(BigInt(42), hex) == Keep(JNum(42.0));
    assert ConvertEntries(small, hex) == Then([Field("a", JNum(42.0))], ConvertEntries([], hex));
    assert [Field("a", JNum(42.0))] + [] == [Field("a", JNum(42.0))];
    assert Entries(Object(PlainObject, small)) == Some(small);
  }

  // The request dispatch of `fetch`.

  datatype Header = Header(name: string, value: string)

  /** The CORS header sent with every successful reply. */
  const Cors: seq<Header> := [Header("access-control-allow-origin", "*")]

  datatype Body = NoBody | Plain(text: string) | JsonBody(fields: seq<Field>)

  datatype Response = Response(status: nat, headers: seq<Header>, body: Body)

  /** A reply, or a rejection that escapes the handler (left to the listener's own error handling). */
  datatype Reply = Respond(response: Response) | Reject(error: Thrown)

  /** The result of a call into the gateway, the runtime or the network: a value, or a throw. */
  datatype Outcome<+T> = Returns(value: T) | Throws(error: Thrown)

  /** The latest commit with the two prover reads `GET /head` makes of it. */
  datatype Head = Head(index: Value, context: Value, timestamp: Value, stateRoot: Value)

  /**
   * The gateway as the handler sees it: what `getLatestCommit()` and the two
   * prover reads give, and what `handleRead(sender, data)` gives for each call.
   */
  datatype GatewayCalls = GatewayCalls(head: Outcome<Head>, handleRead: (Value, Value) -> Outcome<string>)

  /** A request; `body` is what `req.json()` gives. */
  datatype Request = Request(verb: string, path: string, body: Outcome<Value>)

  /** The running server: the config record, converted once at startup. */
  datatype Server = Server(config: seq<Field>)

  /** The TypeError `Object.entries` throws on null or undefined. */
  const EntriesTypeError: Thrown := Error("TypeError: Object.entries requires that input parameter not be null or undefined", NoCause)

  /** The TypeError from destructuring `{ sender, data }` out of null or undefined. */
  const DestructureTypeError: Thrown := Error("TypeError: Right side of assignment cannot be destructured", NoCause)

  /** `serve({ port, gateway, config })`: `config = toJSON(config)` before listening; a throw there stops startup. */
  function Start(config: Value, hex: int -> string): (r: Outcome<Server>)
    ensures r.Returns? <==> RecordSafe(config)
    ensures r.Returns? ==> Some(r.value.config) == ToJson(config, hex)
  {
    ToJsonSucceeds(config, hex);
    match ToJson(config, hex)
    case None => Throws(EntriesTypeError)
    case Some(fields) => Returns(Server(fields))
  }

  /** `obj.key` on a value that is not null or undefined. */
  function PropertyOf(v: Value, key: string): Value {
    if v.Object? then Get(v.props, key) else Undefined
  }

  /** The POST branch: parse, relay to `handleRead`, and map success or any throw to a response. */
  function Post(gateway: GatewayCalls, body: Outcome<Value>): (r: Response)
    ensures r.status == 200 <==> body.Returns? && !body.value.Null? && !body.value.Undefined?
                                 && gateway.handleRead(PropertyOf(body.value, "sender"), PropertyOf(body.value, "data")).Returns?
    ensures r.status == 200 ==> r.headers == Cors && r.body.JsonBody? && FieldKeys(r.body.fields) == ["data"]
    ensures r.status != 200 ==> r.status == 500 && r.headers == [] && r.body.JsonBody? && FieldKeys(r.body.fields) == ["message"]
  {
    var result :=
      match body
      case Throws(e) => Throws(e)
      case Returns(v) =>
        if v.Undefined? || v.Null? then Throws(DestructureTypeError)
        else gateway.handleRead(PropertyOf(v, "sender"), PropertyOf(v, "data"));
    match result
    case Returns(data) => Response(200, Cors, JsonBody([Field("data", JStr(data))]))
    case Throws(err) => Response(500, [], JsonBody([Field("message", JStr(Flatten(err)))]))
  }

  /** The record `GET /head` reports: the commit index, the prover context, and the two prover reads. */
  function HeadRecord(h: Head): Value {
    Object(PlainObject, [
      Prop("commitIndex", h.index), Prop("prover", h.context),
      Prop("timestamp", h.timestamp), Prop("stateRoot", h.stateRoot)])
  }

  /** The GET /head branch, which has no catch of its own. */
  function GetHead(gateway: GatewayCalls, hex: int -> string): (r: Reply)
    ensures r.Reject? <==> gateway.head.Throws? || !RecordSafe(HeadRecord(gateway.head.value))
    ensures r.Respond? ==> r.response.status == 200 && r.response.headers == Cors
  {
    match gateway.head
    case Throws(e) => Reject(e)
    case Returns(h) =>
      ToJsonSucceeds(HeadRecord(h), hex);
      match ToJson(HeadRecord(h), hex)
      case None => Reject(EntriesTypeError)
      case Some(fields) => Respond(Response(200, Cors, JsonBody(fields)))
  }

  /** `fetch(req)`: dispatch on the method, then on the path for GET. */
  function Fetch(server: Server, gateway: GatewayCalls, req: Request, hex: int -> string): (r: Reply)
    ensures r.Reject? ==> req.verb == "GET" && req.path == "/head"
  {
    if req.verb == "OPTIONS" then
      Respond(Response(204, Cors + [Header("access-control-allow-headers", "*")], NoBody))
    else if req.verb == "GET" then
      if req.path == "/" then Respond(Response(200, Cors, JsonBody(server.config)))
      else if req.path == "/head" then GetHead(gateway, hex)
      else Respond(Response(404, Cors, Plain("file not found")))
    else if req.verb == "POST" then
      Respond(Post(gateway, req.body))
    else
      Respond(Response(405, [], Plain("unsupported")))
  }

  /** A preflight on any path is answered 204 with no body, allowing any origin and any header. */
  lemma OptionsPreflight(server: Server, gateway: GatewayCalls, req: Request, hex: int -> string)
    requires req.verb == "OPTIONS"
    ensures Fetch(server, gateway, req, hex) == Respond(Response(204,
      [Header("access-control-allow-origin", "*"), Header("access-control-allow-headers", "*")], NoBody))
  {
  }

  /**
   * `GET /` answers the startup snapshot of the config, whatever the gateway
   * is doing: two status requests get the same body.
   */
  lemma StatusIsSnapshot(config: Value, g1: GatewayCalls, g2: GatewayCalls, r1: Request, r2: Request, hex: int -> string)
    requires Start(config, hex).Returns?
    requires r1.verb == "GET" && r1.path == "/" && r2.verb == "GET" && r2.path == "/"
    ensures var server := Start(config, hex).value;
      && Fetch(server, g1, r1, hex) == Respond(Response(200, Cors, JsonBody(ToJson(config, hex).value)))
      && Fetch(server, g1, r1, hex) == Fetch(server, g2, r2, hex)
  {
  }

  /** GET on any path but "/" and "/head" is 404 "file not found", with the CORS header. */
  lemma UnknownPathNotFound(server: Server, gateway: GatewayCalls, req: Request, hex: int -> string)
    requires req.verb == "GET" && req.path != "/" && req.path != "/head"
    ensures Fetch(server, gateway, req, hex) == Respond(Response(404, Cors, Plain("file not found")))
  {
  }

  /** Any method other than OPTIONS, GET and POST is 405, with no CORS header. */
  lemma UnsupportedMethod(server: Server, gateway: GatewayCalls, req: Request, hex: int -> string)
    requires req.verb !in {"OPTIONS", "GET", "POST"}
    ensures Fetch(server, gateway, req, hex) == Respond(Response(405, [], Plain("unsupported")))
  {
  }

  /** The POST body is relayed: `req.json()` gave a value that can be destructured. */
  predicate Relayed(req: Request) {
    req.body.Returns? && !req.body.value.Null? && !req.body.value.Undefined?
  }

  /** What `handleRead` gives for the `sender` and `data` of a relayed body. */
  function RelayOf(gateway: GatewayCalls, req: Request): Outcome<string>
    requires Relayed(req)
  {
    gateway.handleRead(PropertyOf(req.body.value, "sender"), PropertyOf(req.body.value, "data"))
  }

  /**
   * A relayed read that returns `data` is answered `{data}` with the CORS
   * header, on any path. Any body but null and undefined is relayed: a
   * string, number or array body has no `sender` or `data` and relays
   * undefined for both.
   */
  lemma PostSuccess(server: Server, gateway: GatewayCalls, req: Request, hex: int -> string)
    requires req.verb == "POST" && Relayed(req) && RelayOf(gateway, req).Returns?
    ensures var data := RelayOf(gateway, req).value;
      Fetch(server, gateway, req, hex) == Respond(Response(200, Cors, JsonBody([Field("data", JStr(data))])))
  {
  }

  /**
   * Whatever throws inside the POST branch is answered 500 with
   * `{message: flattenErrors(err)}` and no CORS header: a body that does not
   * parse, a null body that cannot be destructured, or a failing relay.
   */
  lemma PostFailure(server: Server, gateway: GatewayCalls, req: Request, hex: int -> string, err: Thrown)
    requires req.verb == "POST"
    requires || req.body == Throws(err)
             || (req.body.Returns? && (req.body.value.Null? || req.body.value.Undefined?) && err == DestructureTypeError)
             || (Relayed(req) && RelayOf(gateway, req) == Throws(err))
    ensures Fetch(server, gateway, req, hex) == Respond(Response(500, [], JsonBody([Field("message", JStr(Flatten(err)))])))
  {
  }

  /**
   * When the body cannot be read or the relay fails with a chain of Errors,
   * the 500 answer lists every cause of the failure, outermost first.
   */
  lemma PostFailureListsCauses(server: Server, gateway: GatewayCalls, req: Request, hex: int -> string, texts: seq<string>)
    requires texts != [] && req.verb == "POST"
    requires req.body == Throws(ChainOf(texts)) || (Relayed(req) && RelayOf(gateway, req) == Throws(ChainOf(texts)))
    ensures Fetch(server, gateway, req, hex)
      == Respond(Response(500, [], JsonBody([Field("message", JStr(Join(texts, Separator)))])))
  {
    ChainOfSegments(texts);
  }

  /**
   * `GET /head` answers the converted head record with the CORS header; a
   * failing gateway call or a conversion that throws is not caught and
   * rejects the request.
   */
  lemma HeadReply(server: Server, gateway: GatewayCalls, req: Request, hex: int -> string)
    requires req.verb == "GET" && req.path == "/head"
    ensures gateway.head.Throws? ==> Fetch(server, gateway, req, hex) == Reject(gateway.head.error)
    ensures gateway.head.Returns? && !RecordSafe(HeadRecord(gateway.head.value)) ==>
      Fetch(server, gateway, req, hex) == Reject(EntriesTypeError)
    ensures gateway.head.Returns? && RecordSafe(HeadRecord(gateway.head.value)) ==>
      && Fetch(server, gateway, req, hex).Respond?
      && Fetch(server, gateway, req, hex).response.status == 200
      && Fetch(server, gateway, req, hex).response.headers == Cors
      && Fetch(server, gateway, req, hex).response.body.JsonBody?
      && var h, fields := gateway.head.value, Fetch(server, gateway, req, hex).response.body.fields;
         && LookupField(fields, "commitIndex") == Converts(Some(h.index), hex)
         && LookupField(fields, "prover") == Converts(Some(h.context), hex)
         && LookupField(fields, "timestamp") == Converts(Some(h.timestamp), hex)
         && LookupField(fields, "stateRoot") == Converts(Some(h.stateRoot), hex)
         && forall i :: 0 <= i < |fields| ==> fields[i].key in ["commitIndex", "prover", "timestamp", "stateRoot"]
  {
    if gateway.head.Returns? {
      ToJsonSucceeds(HeadRecord(gateway.head.value), hex);
      if RecordSafe(HeadRecord(gateway.head.value)) {
        HeadFields(gateway.head.value, hex);
      }
    }
  }

  /**
   * The converted head record: `commitIndex`, `prover`, `timestamp` and
   * `stateRoot` each hold the conversion of the commit's value of that name,
   * and no other key appears.
   */
  lemma HeadFields(h: Head, hex: int -> string)
    requires ToJson(HeadRecord(h), hex).Some?
    ensures var fields := ToJson(HeadRecord(h), hex).value;
      && LookupField(fields, "commitIndex") == Converts(Some(h.index), hex)
      && LookupField(fields, "prover") == Converts(Some(h.context), hex)
      && LookupField(fields, "timestamp") == Converts(Some(h.timestamp), hex)
      && LookupField(fields, "stateRoot") == Converts(Some(h.stateRoot), hex)
      && forall i :: 0 <= i < |fields| ==> fields[i].key in ["commitIndex", "prover", "timestamp", "stateRoot"]
  {
    var ps := HeadRecord(h).props;
    assert ToJson(HeadRecord(h), hex) == ConvertEntries(ps, hex);
    assert Keys(ps) == ["commitIndex", "prover", "timestamp", "stateRoot"];
    assert UniqueKeys(Keys(ps));
    assert Lookup(ps, "commitIndex") == Some(h.index);
    assert Lookup(ps, "prover") == Lookup(ps[1..], "prover") == Some(h.context);
    assert Lookup(ps, "timestamp") == Lookup(ps[1..], "timestamp") == Lookup(ps[1..][1..], "timestamp") == Some(h.timestamp);
    assert Lookup(ps, "stateRoot") == Lookup(ps[1..], "stateRoot") == Lookup(ps[1..][1..], "stateRoot")
      == Lookup(ps[1..][1..][1..], "stateRoot") == Some(h.stateRoot);
    ConvertEntriesFieldwise(ps, hex, "commitIndex");
    ConvertEntriesFieldwise(ps, hex, "prover");
    ConvertEntriesFieldwise(ps, hex, "timestamp");
    ConvertEntriesFieldwise(ps, hex, "stateRoot");
    ConvertEntriesShape(ps, hex);
  }
}

=== FILE: startup.dfy ===
/**
 * Startup of the command-line server (src/index.ts): the unsigned-integer
 * option parser, the cache and prefetch configuration `serveGateway` applies
 * to the rollup and the gateway, the prefetch cycle, the config record the
 * server publishes, the beacon-URL derivation of the Scroll commands and the
 * GameFinder override of the OP fault-proof commands.
 */
module Startup {
  import opened Text
  import opened JsValues
  import opened Utils
  import Providers
  import Serve

  const UintErrorPrefix: string := "expected unsigned integer: "

  /**
   * `parseUint(s)`: the value `parseInt(s)` reads, when that is a safe integer
   * that is not negative; otherwise the error "expected unsigned integer: s".
   */
  function ParseUint(s: string): (r: Result<nat, string>)
    ensures r.Ok? ==> r.value <= MaxSafeInteger && ParseInt(s) == Int(r.value)
    ensures r.Ok? <==> ParseInt(s).Int? && 0 <= ParseInt(s).value <= MaxSafeInteger
    ensures r.Err? ==> r.error == UintErrorPrefix + s
  {
    match ParseInt(s)
    case NaN => Err(UintErrorPrefix + s)
    case Int(i) => if 0 <= i <= MaxSafeInteger then Ok(i) else Err(UintErrorPrefix + s)
  }

  /** Every safe unsigned integer written in decimal is accepted as itself, whatever text follows the digits. */
  lemma ParseUintRoundTrip(n: nat, rest: string)
    requires n <= MaxSafeInteger && EndsNumber(n, rest)
    ensures ParseUint(NatToDecimal(n) + rest) == Ok(n)
  {
    ParseIntOfDecimal(n, rest);
  }

  /** A number beyond 2^53 - 1 is rejected. */
  lemma ParseUintRejectsUnsafe(n: nat, rest: string)
    requires n > MaxSafeInteger && EndsNumber(n, rest)
    ensures ParseUint(NatToDecimal(n) + rest) == Err(UintErrorPrefix + (NatToDecimal(n) + rest))
  {
    ParseIntOfDecimal(n, rest);
  }

  /** A negative number is rejected; "-0" is not negative and is accepted as 0. */
  lemma ParseUintRejectsNegative(n: nat, rest: string)
    requires EndsNumber(n, rest)
    ensures var s := "-" + (NatToDecimal(n) + rest);
      n > 0 <==> ParseUint(s) == Err(UintErrorPrefix + s)
    ensures n == 0 ==> ParseUint("-" + (NatToDecimal(n) + rest)) == Ok(0)
  {
    ParseIntOfNegative(n, rest);
  }

  // serveGateway: rollup and gateway settings.

  /** What the `configure` hook installed on the rollup sets on the prover of every commit. */
  datatype ProverSettings = ProverSettings(fast: bool, printDebug: bool)

  /** The rollup fields that startup overwrites. */
  class Rollup {
    var latestBlockTag: string
    var getLogsStepSize: nat
    /** None while the rollup keeps its own `configure` hook. */
    var configure: Option<ProverSettings>

    constructor (latestBlockTag: string, getLogsStepSize: nat)
      ensures this.latestBlockTag == latestBlockTag && this.getLogsStepSize == getLogsStepSize
      ensures configure == None
    {
      this.latestBlockTag := latestBlockTag;
      this.getLogsStepSize := getLogsStepSize;
      configure := None;
    }

    /** Block tag and log step size from the options; every prover gets `fast` from the options and no debug output. */
    method Configure(blockTag: string, logStepSize: nat, fast: bool)
      modifies this
      ensures latestBlockTag == blockTag && getLogsStepSize == logStepSize
      ensures configure == Some(ProverSettings(fast, false))
    {
      latestBlockTag := blockTag;
      getLogsStepSize := logStepSize;
      configure := Some(ProverSettings(fast, false));
    }
  }

  /** The gateway's cache knobs: the call LRU size, the commit depth and the latest-commit cache period. */
  class Gateway {
    const rollup: Rollup
    var callLruMax: nat
    var commitDepth: nat
    var cacheMs: nat
    var cacheEnabled: bool

    /** `new Gateway(rollup)`, with the engine's defaults. */
    constructor (rollup: Rollup, callLruMax: nat, commitDepth: nat, cacheMs: nat)
      ensures this.rollup == rollup && this.callLruMax == callLruMax
      ensures this.commitDepth == commitDepth && this.cacheMs == cacheMs && cacheEnabled
    {
      this.rollup := rollup;
      this.callLruMax := callLruMax;
      this.commitDepth := commitDepth;
      this.cacheMs := cacheMs;
      cacheEnabled := true;
    }

    /**
     * The cache branch: the LRU size and commit depth come from the options,
     * and the cache period becomes the larger of its current value and the
     * polling frequency in milliseconds, so it never shrinks.
     */
    method ConfigureCache(maxCallCache: nat, depth: nat, frequency: nat)
      modifies this
      ensures callLruMax == maxCallCache && commitDepth == depth
      ensures cacheMs >= old(cacheMs) && cacheMs >= frequency * 1000
      ensures cacheMs == old(cacheMs) || cacheMs == frequency * 1000
      ensures cacheEnabled == old(cacheEnabled)
    {
      callLruMax := maxCallCache;
      commitDepth := depth;
      cacheMs := Max(cacheMs, frequency * 1000);
    }

    /**
     * `disableCache()`: caching is off. What the engine's call does to the
     * knobs is not modelled; here they keep their values.
     */
    method DisableCache()
      modifies this
      ensures !cacheEnabled
      ensures callLruMax == old(callLruMax) && commitDepth == old(commitDepth) && cacheMs == old(cacheMs)
    {
      cacheEnabled := false;
    }
  }

  /** The parsed options `serveGateway` reads. */
  datatype ServeOpts = ServeOpts(
    blockTag: string, logStepSize: nat, fast: bool,
    cache: bool, prefetch: bool, maxCallCache: nat, commitDepth: nat, frequency: nat)

  // The prefetch cycle.

  /** What one prefetch cycle does, as seen from outside. */
  datatype Event =
    | Attempt                 // one call to getLatestCommit
    | Fetched(index: nat)     // it gave the commit with this index
    | Failed(message: string) // it threw; the error is logged, not rethrown
    | Rescheduled(delayMs: nat) // the next cycle is put on a timer

  /** One cycle: one attempt, its logged result, and exactly one new timer, whether the attempt failed or not. */
  function Cycle(outcome: Serve.Outcome<nat>, cacheMs: nat): (es: seq<Event>)
    ensures |es| == 3 && es[0] == Attempt && es[2] == Rescheduled(cacheMs)
    ensures es[1].Fetched? <==> outcome.Returns?
  {
    match outcome
    case Returns(index) => [Attempt, Fetched(index), Rescheduled(cacheMs)]
    case Throws(err) => [Attempt, Failed("Prefetch failed: " + Flatten(err)), Rescheduled(cacheMs)]
  }

  /** The first |outcomes| cycles, when the i-th call to getLatestCommit gives outcomes[i]. */
  function Cycles(outcomes: seq<Serve.Outcome<nat>>, cacheMs: nat): (es: seq<Event>)
    ensures |es| == 3 * |outcomes|
    decreases |outcomes|
  {
    if outcomes == [] then []
    else Cycles(outcomes[..|outcomes| - 1], cacheMs) + Cycle(outcomes[|outcomes| - 1], cacheMs)
  }

  lemma {:induction false} CycleAt(outcomes: seq<Serve.Outcome<nat>>, cacheMs: nat, i: nat)
    requires i < |outcomes|
    ensures 3 * i + 3 <= |Cycles(outcomes, cacheMs)|
    ensures Cycles(outcomes, cacheMs)[3 * i .. 3 * i + 3] == Cycle(outcomes[i], cacheMs)
    decreases |outcomes|
  {
    var n := |outcomes| - 1;
    var front := outcomes[..n];
    var before := Cycles(front, cacheMs);
    var last := Cycle(outcomes[n], cacheMs);
    assert Cycles(outcomes, cacheMs) == before + last;
    if i < n {
      CycleAt(front, cacheMs, i);
      assert front[i] == outcomes[i];
      SliceOfFront(before, last, 3 * i);
    } else {
      assert 3 * i == |before|;
      assert (before + last)[3 * i .. 3 * i + 3] == last;
    }
  }

  /** Cycle i occupies events 3i to 3i+2: a failure never stops or doubles the schedule. */
  lemma CyclesShape(outcomes: seq<Serve.Outcome<nat>>, cacheMs: nat)
    ensures |Cycles(outcomes, cacheMs)| == 3 * |outcomes|
    ensures forall i :: 0 <= i < |outcomes| ==>
      Cycles(outcomes, cacheMs)[3 * i .. 3 * i + 3] == Cycle(outcomes[i], cacheMs)
  {
    forall i | 0 <= i < |outcomes|
      ensures Cycles(outcomes, cacheMs)[3 * i .. 3 * i + 3] == Cycle(outcomes[i], cacheMs)
    {
      CycleAt(outcomes, cacheMs, i);
    }
  }

  lemma SliceOfFront(a: seq<Event>, b: seq<Event>, j: nat)
    requires j + 3 <= |a|
    ensures (a + b)[j .. j + 3] == a[j .. j + 3]
  {
  }

  /**
   * The self-rescheduling `prefetch`, run for |outcomes| cycles: each cycle
   * awaits one getLatestCommit, logs the index or the flattened error, and
   * sets one timer of `cacheMs`.
   */
  method Prefetch(gateway: Gateway, outcomes: seq<Serve.Outcome<nat>>) returns (trace: seq<Event>)
    ensures trace == Cycles(outcomes, gateway.cacheMs)
  {
    trace := [];
    var i := 0;
    while i < |outcomes|
      invariant 0 <= i <= |outcomes|
      invariant trace == Cycles(outcomes[..i], gateway.cacheMs)
    {
      trace := trace + [Attempt];
      match outcomes[i] {
        case Returns(index) =>
          trace := trace + [Fetched(index)];
        case Throws(err) =>
          var message := FlattenErrors(err);
          trace := trace + [Failed("Prefetch failed: " + message)];
      }
      trace := trace + [Rescheduled(gateway.cacheMs)];
      assert outcomes[..i + 1][..i] == outcomes[..i];
      i := i + 1;
    }
    assert outcomes[..i] == outcomes;
  }

  /**
   * `serveGateway` up to `serve`: configures the rollup, creates the gateway,
   * then either tunes its cache and (with prefetch on) starts the prefetch
   * cycle, or disables its cache.
   */
  method ServeGateway(rollup: Rollup, opts: ServeOpts, lruDefault: nat, depthDefault: nat, cacheMsDefault: nat,
                      outcomes: seq<Serve.Outcome<nat>>)
    returns (gateway: Gateway, trace: seq<Event>)
    modifies rollup
    ensures rollup.latestBlockTag == opts.blockTag && rollup.getLogsStepSize == opts.logStepSize
    ensures rollup.configure == Some(ProverSettings(opts.fast, false))
    ensures fresh(gateway) && gateway.rollup == rollup && gateway.cacheEnabled == opts.cache
    ensures opts.cache ==> (gateway.callLruMax == opts.maxCallCache && gateway.commitDepth == opts.commitDepth
                            && gateway.cacheMs == Max(cacheMsDefault, opts.frequency * 1000))
    ensures !opts.cache ==> (gateway.callLruMax == lruDefault && gateway.commitDepth == depthDefault
                             && gateway.cacheMs == cacheMsDefault)
    ensures trace == if opts.cache && opts.prefetch then Cycles(outcomes, gateway.cacheMs) else []
  {
    rollup.Configure(opts.blockTag, opts.logStepSize, opts.fast);
    gateway := new Gateway(rollup, lruDefault, depthDefault, cacheMsDefault);
    trace := [];
    if opts.cache {
      gateway.ConfigureCache(opts.maxCallCache, opts.commitDepth, opts.frequency);
      if opts.prefetch {
        trace := Prefetch(gateway, outcomes);
      }
    } else {
      gateway.DisableCache();
    }
  }

  // The config record handed to `serve`.

  /** The parts of the served config that come from outside this model. */
  datatype ConfigParts = ConfigParts(
    name: string,              // the rollup's class name
    chain1: string, chain2: string, // chainName of each provider's chain id
    cache: bool, prefetch: bool, timeout: nat,
    gatewayProps: seq<Prop>,   // the gateway's own enumerable properties
    rollupProps: seq<Prop>)    // the rollup's own enumerable properties

  /** `new Date()`: an instance of a class other than Object. */
  const StartDate: Value := Object(OtherInstance, [])

  /** The literal's own fields, before the spreads. */
  function BaseConfig(p: ConfigParts): (ps: seq<Prop>)
    ensures UniqueKeys(Keys(ps))
  {
    [Prop("name", Str(p.name)), Prop("chain1", Str(p.chain1)), Prop("chain2", Str(p.chain2)),
     Prop("since", StartDate), Prop("prefetch", Bool(p.cache && p.prefetch)),
     Prop("timeout", Num(p.timeout as real))]
  }

  lemma BaseConfigLookups(p: ConfigParts)
    ensures Lookup(BaseConfig(p), "since") == Some(StartDate)
    ensures Lookup(BaseConfig(p), "prefetch") == Some(Bool(p.cache && p.prefetch))
    ensures Lookup(BaseConfig(p), "timeout") == Some(Num(p.timeout as real))
  {
    var b := BaseConfig(p);
    var c := b[3..];
    assert b[1..][1..][1..] == c && c[1..] == b[4..] && b[4..][1..] == b[5..];
    forall k | k in ["since", "prefetch", "timeout"]
      ensures Lookup(b, k) == Lookup(c, k)
    {
      assert Lookup(b, k) == Lookup(b[1..], k) == Lookup(b[1..][1..], k) == Lookup(c, k);
    }
    assert Lookup(c, "prefetch") == Lookup(b[4..], "prefetch");
    assert Lookup(c, "timeout") == Lookup(b[4..], "timeout") == Lookup(b[5..], "timeout");
  }

  /** `{name, chain1, chain2, since, prefetch, timeout, ...gateway, ...rollup, beaconAPI: undefined}`. */
  function ServedConfig(p: ConfigParts): (v: Value)
    ensures v.Object? && v.kind.PlainObject?
    ensures Lookup(v.props, "beaconAPI") == Some(Undefined)
  {
    var spread := Spread(Spread(BaseConfig(p), p.gatewayProps), p.rollupProps);
    AssignLookup(spread, Prop("beaconAPI", Undefined), "beaconAPI");
    Object(PlainObject, Assign(spread, Prop("beaconAPI", Undefined)))
  }

  /**
   * In the served config, `beaconAPI` is undefined; any other key takes the
   * rollup's value if the rollup has it, else the gateway's, else the
   * literal's own.
   */
  lemma ServedConfigLookup(p: ConfigParts, k: string)
    requires UniqueKeys(Keys(p.gatewayProps)) && UniqueKeys(Keys(p.rollupProps))
    ensures UniqueKeys(Keys(ServedConfig(p).props))
    ensures Lookup(ServedConfig(p).props, "beaconAPI") == Some(Undefined)
    ensures k != "beaconAPI" ==> (Lookup(ServedConfig(p).props, k) ==
      if k in Keys(p.rollupProps) then Lookup(p.rollupProps, k)
      else if k in Keys(p.gatewayProps) then Lookup(p.gatewayProps, k)
      else Lookup(BaseConfig(p), k))
  {
    var afterGateway := Spread(BaseConfig(p), p.gatewayProps);
    SpreadUnique(BaseConfig(p), p.gatewayProps);
    SpreadUnique(afterGateway, p.rollupProps);
    AssignUnique(Spread(afterGateway, p.rollupProps), Prop("beaconAPI", Undefined));
    SpreadLookup(BaseConfig(p), p.gatewayProps, k);
    SpreadLookup(afterGateway, p.rollupProps, k);
    AssignLookup(Spread(afterGateway, p.rollupProps), Prop("beaconAPI", Undefined), k);
    AssignLookup(Spread(afterGateway, p.rollupProps), Prop("beaconAPI", Undefined), "beaconAPI");
  }

  /** Each field of the published snapshot is the conversion of the served config's property of that name. */
  lemma ServedField(p: ConfigParts, hex: int -> string, k: string)
    requires UniqueKeys(Keys(p.gatewayProps)) && UniqueKeys(Keys(p.rollupProps))
    requires Serve.ToJson(ServedConfig(p), hex).Some?
    ensures LookupField(Serve.ToJson(ServedConfig(p), hex).value, k)
      == Serve.Converts(Lookup(ServedConfig(p).props, k), hex)
  {
    var props := ServedConfig(p).props;
    assert Serve.ToJson(ServedConfig(p), hex) == Serve.ConvertEntries(props, hex);
    ServedConfigLookup(p, k);
    Serve.ConvertEntriesFieldwise(props, hex, k);
  }

  /** The published snapshot never shows `beaconAPI`. */
  lemma SnapshotHidesBeaconApi(p: ConfigParts, hex: int -> string)
    requires UniqueKeys(Keys(p.gatewayProps)) && UniqueKeys(Keys(p.rollupProps))
    requires Serve.ToJson(ServedConfig(p), hex).Some?
    ensures LookupField(Serve.ToJson(ServedConfig(p), hex).value, "beaconAPI") == None
  {
    ServedField(p, hex, "beaconAPI");
    ServedConfigLookup(p, "beaconAPI");
  }

  /** The start date is a class instance, so the snapshot drops it, unless the gateway or rollup has its own `since`. */
  lemma SnapshotDropsStartDate(p: ConfigParts, hex: int -> string)
    requires UniqueKeys(Keys(p.gatewayProps)) && UniqueKeys(Keys(p.rollupProps))
    requires Serve.ToJson(ServedConfig(p), hex).Some?
    requires "since" !in Keys(p.gatewayProps) && "since" !in Keys(p.rollupProps)
    ensures LookupField(Serve.ToJson(ServedConfig(p), hex).value, "since") == None
  {
    ServedField(p, hex, "since");
    ServedConfigLookup(p, "since");
    BaseConfigLookups(p);
    assert Serve.ConvertValue(StartDate, hex) == Serve.Drop;
  }

  /**
   * The snapshot reports `prefetch` as whether prefetching runs (cache and
   * prefetch both on), and the RPC timeout, unless the gateway or rollup
   * has a property of that name.
   */
  lemma SnapshotReportsSettings(p: ConfigParts, hex: int -> string)
    requires UniqueKeys(Keys(p.gatewayProps)) && UniqueKeys(Keys(p.rollupProps))
    requires Serve.ToJson(ServedConfig(p), hex).Some?
    requires "prefetch" !in Keys(p.gatewayProps) && "prefetch" !in Keys(p.rollupProps)
    requires "timeout" !in Keys(p.gatewayProps) && "timeout" !in Keys(p.rollupProps)
    ensures LookupField(Serve.ToJson(ServedConfig(p), hex).value, "prefetch") == Some(JBool(p.cache && p.prefetch))
    ensures LookupField(Serve.ToJson(ServedConfig(p), hex).value, "timeout") == Some(JNum(p.timeout as real))
  {
    ServedField(p, hex, "prefetch");
    ServedConfigLookup(p, "prefetch");
    BaseConfigLookups(p);
    ServedField(p, hex, "timeout");
    ServedConfigLookup(p, "timeout");
  }

  // createScrollRollup: the beacon API URL.

  const BeaconMissing: string := "required option '--beacon-url <string>' not specified"

  /** The DRPC beacon-chain slug for the L1 chain, when there is one. */
  function BeaconSlug(chain1: Providers.Chain): Option<string> {
    match chain1
    case Mainnet => Some("eth-beacon-chain")
    case Sepolia => Some("eth-beacon-chain-sepolia")
    case _ => None
  }

  /**
   * The beacon URL a Scroll command runs with: the option when it is
   * non-empty, otherwise the DRPC REST endpoint for the L1 chain; with no slug
   * for the chain or no DRPC key the command prints BeaconMissing and exits with status 1.
   */
  function BeaconUrl(beaconUrl: Option<string>, chain1: Providers.Chain, drpcKey: Option<string>): (r: Result<string, string>)
    ensures TruthyString(beaconUrl) ==> r == Ok(beaconUrl.value)
    ensures !TruthyString(beaconUrl) ==> (r.Ok? <==> (chain1.Mainnet? || chain1.Sepolia?) && TruthyString(drpcKey))
    ensures r.Err? ==> r.error == BeaconMissing
  {
    if TruthyString(beaconUrl) then Ok(beaconUrl.value)
    else
      var slug := BeaconSlug(chain1);
      if !TruthyString(slug) || !TruthyString(drpcKey) then Err(BeaconMissing)
      else Ok("https://lb.drpc.org/rest/" + drpcKey.value + "/" + slug.value)
  }

  // createOpFaultRollup: the GameFinder override.

  /**
   * `{...baseConfig, GameFinder: opts.gameFinder ?? baseConfig.GameFinder}`:
   * a given option wins even when it is empty (`??` only skips an absent
   * value); every other field is the base config's.
   */
  function WithGameFinder(base: seq<Prop>, gameFinder: Option<string>): (r: seq<Prop>)
    ensures gameFinder.Some? ==> Lookup(r, "GameFinder") == Some(Str(gameFinder.value))
    ensures gameFinder.None? ==> Get(r, "GameFinder") == Get(base, "GameFinder")
    ensures forall k :: k != "GameFinder" ==> Lookup(r, k) == Lookup(base, k)
    ensures Keys(r) == if "GameFinder" in Keys(base) then Keys(base) else Keys(base) + ["GameFinder"]
  {
    var finder := if gameFinder.Some? then Str(gameFinder.value) else Get(base, "GameFinder");
    AssignKeys(base, Prop("GameFinder", finder));
    AssignLookup(base, Prop("GameFinder", finder), "GameFinder");
    forall k | k != "GameFinder"
      ensures Lookup(Assign(base, Prop("GameFinder", finder)), k) == Lookup(base, k)
    {
      AssignLookup(base, Prop("GameFinder", finder), k);
    }
    Assign(base, Prop("GameFinder", finder))
  }

  /** The derived URLs: the DRPC REST root, the key, then the chain's beacon slug. */
  lemma DerivedBeaconUrls(beaconUrl: Option<string>, key: string)
    requires !TruthyString(beaconUrl) && key != ""
    ensures BeaconUrl(beaconUrl, Providers.Mainnet, Some(key)) == Ok("https://lb.drpc.org/rest/" + key + "/eth-beacon-chain")
    ensures BeaconUrl(beaconUrl, Providers.Sepolia, Some(key)) == Ok("https://lb.drpc.org/rest/" + key + "/eth-beacon-chain-sepolia")
  {
    assert "https://lb.drpc.org/rest/" + key + "/" + "eth-beacon-chain" == "https://lb.drpc.org/rest/" + key + "/eth-beacon-chain";
    assert "https://lb.drpc.org/rest/" + key + "/" + "eth-beacon-chain-sepolia" == "https://lb.drpc.org/rest/" + key + "/eth-beacon-chain-sepolia";
  }
}

=== FILE: text.dfy ===
/**
 * Text helpers shared by the model: decimal rendering of naturals (used for
 * array-index keys, chain ids in error messages and the round trip of the
 * option parser), the decimal-prefix reading that JavaScript's `parseInt`
 * performs (decimal and hexadecimal), and `Array.prototype.join`.
 */
module Text {

  /** Number.MAX_SAFE_INTEGER, 2^53 - 1. */
  const MaxSafeInteger: int := 0x1F_FFFF_FFFF_FFFF

  /**
   * The value of a character as a digit of `parseInt`: 0-9 for the decimal
   * digits, 10-35 for the letters a-z and A-Z; 36, a digit of no radix, for
   * anything else.
   */
  function CharValue(c: char): (d: nat)
    ensures d <= 36
  {
    if '0' <= c <= '9' then (c as int) - ('0' as int)
    else if 'a' <= c <= 'z' then (c as int) - ('a' as int) + 10
    else if 'A' <= c <= 'Z' then (c as int) - ('A' as int) + 10
    else 36
  }

  predicate IsDigitIn(c: char, radix: nat) {
    CharValue(c) < radix
  }

  predicate AllDigitsIn(s: string, radix: nat) {
    forall i :: 0 <= i < |s| ==> IsDigitIn(s[i], radix)
  }

  function DigitChar(d: nat): (c: char)
    requires d < 10
    ensures '0' <= c <= '9' && CharValue(c) == d
  {
    (('0' as int) + d) as char
  }

  /** The decimal rendering of `n`, as `String(n)` gives it: no sign, no leading zero. */
  function NatToDecimal(n: nat): (s: string)
    ensures |s| >= 1 && AllDigitsIn(s, 10)
    ensures |s| > 1 ==> s[0] != '0'
    decreases n
  {
    if n < 10 then [DigitChar(n)] else NatToDecimal(n / 10) + [DigitChar(n % 10)]
  }

  /** The value of a string of digits in `radix`, most significant digit first. */
  function DigitsValue(s: string, radix: nat): nat
    requires AllDigitsIn(s, radix)
    decreases |s|
  {
    if s == [] then 0 else radix * DigitsValue(s[..|s| - 1], radix) + CharValue(s[|s| - 1])
  }

  /** Reading back a rendered natural gives the natural. */
  lemma {:induction false} DecimalRoundTrip(n: nat)
    ensures DigitsValue(NatToDecimal(n), 10) == n
    decreases n
  {
    if n >= 10 {
      var s := NatToDecimal(n);
      assert s[..|s| - 1] == NatToDecimal(n / 10);
      DecimalRoundTrip(n / 10);
    }
  }

  /** Rendering is injective: distinct naturals give distinct strings. */
  lemma NatToDecimalInjective(m: nat, n: nat)
    requires m != n
    ensures NatToDecimal(m) != NatToDecimal(n)
  {
    DecimalRoundTrip(m);
    DecimalRoundTrip(n);
  }

  /** The length of the longest prefix of `s` made of digits in `radix`. */
  function DigitRun(s: string, radix: nat): (k: nat)
    ensures k <= |s| && AllDigitsIn(s[..k], radix)
    ensures k < |s| ==> !IsDigitIn(s[k], radix)
    decreases |s|
  {
    if s == [] || !IsDigitIn(s[0], radix) then 0
    else
      var k := 1 + DigitRun(s[1..], radix);
      assert s[..k] == [s[0]] + s[1..][..k - 1];
      k
  }

  /** The white space that `parseInt` skips before the number (ASCII part only). */
  predicate IsSpace(c: char) {
    c == ' ' || c == '\t' || c == '\n' || c == '\r' || c == '\U{B}' || c == '\U{C}'
  }

  function TrimStart(s: string): (t: string)
    ensures |t| <= |s| && t == s[|s| - |t|..]
    ensures t == [] || !IsSpace(t[0])
    decreases |s|
  {
    if s != [] && IsSpace(s[0]) then TrimStart(s[1..]) else s
  }

  /** The outcome of `parseInt(s)` with no radix: NaN or an integer. */
  datatype ParsedNumber = NaN | Int(value: int)

  /** After the sign, "0x" or "0X" switches `parseInt` to hexadecimal. */
  predicate HasHexPrefix(u: string) {
    |u| >= 2 && u[0] == '0' && (u[1] == 'x' || u[1] == 'X')
  }

  /**
   * `parseInt(s)` with no radix: leading white space is skipped, one optional
   * sign is read, then the unsigned part.
   */
  function ParseInt(s: string): (p: ParsedNumber)
    ensures TrimStart(s) == [] ==> p == NaN
    ensures p.Int? && p.value < 0 ==> '-' in s
  {
    var t := TrimStart(s);
    if t != [] && t[0] == '-' then Negate(ParseUnsigned(t[1..]))
    else if t != [] && t[0] == '+' then ParseUnsigned(t[1..])
    else ParseUnsigned(t)
  }

  function Negate(p: ParsedNumber): ParsedNumber {
    if p.NaN? then NaN else Int(-p.value)
  }

  /** A "0x"/"0X" prefix selects hexadecimal, decimal otherwise. */
  function ParseUnsigned(u: string): (p: ParsedNumber)
    ensures p.Int? ==> p.value >= 0
  {
    if HasHexPrefix(u) then ParseDigits(u[2..], 16) else ParseDigits(u, 10)
  }

  /** The longest run of digits in `radix`; NaN when there is none, and anything after it is ignored. */
  function ParseDigits(body: string, radix: nat): (p: ParsedNumber)
    ensures p.Int? ==> p.value >= 0
  {
    var k := DigitRun(body, radix);
    if k == 0 then NaN else Int(DigitsValue(body[..k], radix))
  }

  /** The digits of a rendered natural, with trailing text that does not extend them or make a hex prefix. */
  predicate EndsNumber(n: nat, rest: string) {
    rest == [] || (!IsDigitIn(rest[0], 10) && !(n == 0 && rest[0] in "xX"))
  }

  lemma ParseUnsignedOfDecimal(n: nat, rest: string)
    requires EndsNumber(n, rest)
    ensures ParseUnsigned(NatToDecimal(n) + rest) == Int(n)
  {
    var d := NatToDecimal(n);
    var s := d + rest;
    assert !HasHexPrefix(s) by {
      if |d| > 1 {
        assert s[1] == d[1] && '0' <= s[1] <= '9';
      } else if |s| >= 2 && s[0] == '0' {
        assert n == 0 && s[1] == rest[0];
      }
    }
    DigitRunOfDecimal(d, rest);
    assert s[..|d|] == d;
    DecimalRoundTrip(n);
  }

  /** A rendered natural reads back as itself, even with trailing text. */
  lemma ParseIntOfDecimal(n: nat, rest: string)
    requires EndsNumber(n, rest)
    ensures ParseInt(NatToDecimal(n) + rest) == Int(n)
  {
    var s := NatToDecimal(n) + rest;
    assert s[0] == NatToDecimal(n)[0];
    ParseIntOfDigitStart(s);
    ParseUnsignedOfDecimal(n, rest);
  }

  /** Text that starts with a decimal digit has no white space or sign to skip. */
  lemma ParseIntOfDigitStart(s: string)
    requires s != [] && '0' <= s[0] <= '9'
    ensures ParseInt(s) == ParseUnsigned(s)
  {
    assert TrimStart(s) == s;
  }

  /** A leading minus sign negates what follows it. */
  lemma ParseIntOfMinus(u: string)
    ensures ParseInt("-" + u) == Negate(ParseUnsigned(u))
  {
    var s := "-" + u;
    assert s[0] == '-' && TrimStart(s) == s;
    assert s[1..] == u;
  }

  /** A minus sign before a rendered natural negates it; "-0" reads as 0. */
  lemma ParseIntOfNegative(n: nat, rest: string)
    requires EndsNumber(n, rest)
    ensures ParseInt("-" + (NatToDecimal(n) + rest)) == Int(-(n as int))
  {
    ParseIntOfMinus(NatToDecimal(n) + rest);
    ParseUnsignedOfDecimal(n, rest);
  }

  lemma {:induction false} DigitRunOfDecimal(d: string, rest: string)
    requires AllDigitsIn(d, 10)
    requires rest == [] || !IsDigitIn(rest[0], 10)
    ensures DigitRun(d + rest, 10) == |d|
    decreases |d|
  {
    if d != [] {
      assert (d + rest)[1..] == d[1..] + rest;
      DigitRunOfDecimal(d[1..], rest);
    } else {
      assert d + rest == rest;
    }
  }

  /** Leading white space is skipped. */
  lemma ParseIntSkipsSpace(c: char, u: string)
    requires IsSpace(c)
    ensures ParseInt([c] + u) == ParseInt(u)
  {
    assert ([c] + u)[1..] == u;
  }

  /** White space, a sign and a hexadecimal prefix are all read: " -0x1F" is -31. */
  lemma ParseIntSignedHex()
    ensures ParseInt(" -0x1F") == Int(-31)
  {
    assert " -0x1F" == [' '] + ("-" + "0x1F");
    ParseIntSkipsSpace(' ', "-" + "0x1F");
    ParseIntOfMinus("0x1F");
    HexDigits1F();
  }

  lemma HexDigits1F()
    ensures ParseUnsigned("0x1F") == Int(31)
  {
    assert HasHexPrefix("0x1F") && "0x1F"[2..] == "1F";
    assert "1F"[1..] == "F" && "F"[1..] == [];
    assert DigitRun("F", 16) == 1;
    assert DigitRun("1F", 16) == 2;
    assert "1F"[..2] == "1F" && "1F"[..1] == "1" && "1"[..0] == [];
    assert DigitsValue("1", 16) == 1;
  }

  /** A hexadecimal prefix with no digit after it is NaN. */
  lemma ParseIntBareHexPrefix()
    ensures ParseInt("0x") == NaN
  {
    assert TrimStart("0x") == "0x";
    assert HasHexPrefix("0x");
    assert "0x"[2..] == [];
  }

  /** Text after the digits is ignored: "12px" is 12. */
  lemma ParseIntTrailingText()
    ensures ParseInt("12px") == Int(12)
  {
    assert TrimStart("12px") == "12px";
    assert !HasHexPrefix("12px");
    DecimalDigits12px();
  }

  lemma DecimalDigits12px()
    ensures ParseDigits("12px", 10) == Int(12)
  {
    assert "12px"[1..] == "2px" && "2px"[1..] == "px";
    assert DigitRun("px", 10) == 0;
    assert DigitRun("2px", 10) == 1;
    assert DigitRun("12px", 10) == 2;
    assert "12px"[..2] == "12" && "12"[..1] == "1" && "1"[..0] == [];
    assert DigitsValue("1", 10) == 1;
  }

  /** `parts.join(sep)`. */
  function Join(parts: seq<string>, sep: string): string
    decreases |parts|
  {
    if |parts| == 0 then ""
    else if |parts| == 1 then parts[0]
    else parts[0] + sep + Join(parts[1..], sep)
  }
}

=== FILE: utils.dfy ===
/**
 * `flattenErrors`: renders a thrown value and the chain of its `cause`
 * links as one line, outermost first, segments joined by " <== ".
 */
module Utils {
  import opened Text

  /**
   * A thrown value. `text` is what `String(value)` gives. An Error carries
   * its `cause` (an absent cause is `undefined`, a falsy non-Error); any
   * other value is a non-Error with its JavaScript truthiness.
   */
  datatype Thrown =
    | Error(text: string, cause: Thrown)
    | NonError(text: string, truthy: bool)

  /** The `cause` of an Error created without one. */
  const NoCause: Thrown := NonError("undefined", false)

  const Separator: string := " <== "

  /** Error objects are always truthy. */
  predicate Truthy(t: Thrown) {
    t.Error? || t.truthy
  }

  /** The loop condition: `e instanceof Error && e.cause`. */
  predicate Continues(e: Thrown) {
    e.Error? && Truthy(e.cause)
  }

  /** The strings pushed by the loop when it starts from `e`. */
  function CauseTexts(e: Thrown): seq<string>
    decreases e
  {
    if Continues(e) then [e.cause.text] + CauseTexts(e.cause) else []
  }

  /** All segments of the flattened message: `String(err)`, then each cause in turn. */
  function Segments(err: Thrown): seq<string> {
    [err.text] + CauseTexts(err)
  }

  /** The number of `cause` links the walk follows from `e`. */
  function Links(e: Thrown): nat
    decreases e
  {
    if Continues(e) then 1 + Links(e.cause) else 0
  }

  /** The message `flattenErrors(err)` returns. */
  function Flatten(err: Thrown): (m: string)
    ensures |err.text| <= |m| && m[..|err.text|] == err.text
    ensures !Continues(err) ==> m == err.text
  {
    var parts := Segments(err);
    assert |parts| > 1 ==> Join(parts, Separator) == err.text + (Separator + Join(parts[1..], Separator));
    Join(parts, Separator)
  }

  /**
   * src/utils.ts `flattenErrors`: starts with `[String(err)]`, follows `cause`
   * while the current value is an Error with a truthy cause, pushing
   * `String(cause)` each time, and joins the list with " <== ".
   */
  method FlattenErrors(err: Thrown) returns (message: string)
    ensures message == Flatten(err)
  {
    var errors := [err.text];
    var e := err;
    while Continues(e)
      invariant errors + CauseTexts(e) == Segments(err)
      decreases e
    {
      errors := errors + [e.cause.text];
      e := e.cause;
    }
    assert CauseTexts(e) == [] && errors + [] == errors;
    message := Join(errors, Separator);
  }

  /** The first segment is `String(err)`, and there is one segment per link followed, plus one. */
  lemma {:induction false} SegmentsShape(err: Thrown)
    ensures |Segments(err)| == 1 + Links(err)
    ensures Segments(err)[0] == err.text
    decreases err
  {
    if Continues(err) {
      SegmentsShape(err.cause);
    }
  }

  /** Each segment after the first is the text of the next cause down the chain. */
  lemma {:induction false} SegmentsAreCauses(err: Thrown)
    ensures Continues(err) ==> Segments(err) == [err.text] + Segments(err.cause)
    ensures !Continues(err) ==> Segments(err) == [err.text]
  {
  }

  /**
   * The message is the outer text, then " <== " and the flattened cause, for as
   * long as the walk continues; it is the text alone where the walk stops.
   */
  lemma {:induction false} FlattenUnfold(err: Thrown)
    ensures Continues(err) ==> Flatten(err) == err.text + Separator + Flatten(err.cause)
    ensures !Continues(err) ==> Flatten(err) == err.text
  {
    SegmentsAreCauses(err);
    if Continues(err) {
      SegmentsShape(err.cause);
      assert Segments(err)[1..] == Segments(err.cause);
    }
  }

  /** A thrown non-Error is rendered alone, with no separator. */
  lemma NonErrorAlone(err: Thrown)
    requires err.NonError?
    ensures Flatten(err) == err.text
  {
    FlattenUnfold(err);
  }

  /** A falsy cause (absent, null, 0, "") ends the walk at the Error itself. */
  lemma FalsyCauseEnds(text: string, cause: Thrown)
    requires !Truthy(cause)
    ensures Flatten(Error(text, cause)) == text
  {
    FlattenUnfold(Error(text, cause));
  }

  /** A truthy non-Error cause is the last segment: the walk stops after it. */
  lemma NonErrorCauseIsLast(text: string, causeText: string)
    ensures Flatten(Error(text, NonError(causeText, true))) == text + Separator + causeText
  {
    FlattenUnfold(Error(text, NonError(causeText, true)));
    FlattenUnfold(NonError(causeText, true));
  }

  /** The chain of Errors whose texts are `texts`, outermost first, ending without a cause. */
  function ChainOf(texts: seq<string>): Thrown
    requires texts != []
    decreases |texts|
  {
    if |texts| == 1 then Error(texts[0], NoCause) else Error(texts[0], ChainOf(texts[1..]))
  }

  /** Every nonempty list of segments is produced, in order, by the matching chain of Errors. */
  lemma {:induction false} ChainOfSegments(texts: seq<string>)
    requires texts != []
    ensures Segments(ChainOf(texts)) == texts
    ensures Flatten(ChainOf(texts)) == Join(texts, Separator)
    decreases |texts|
  {
    if |texts| > 1 {
      ChainOfSegments(texts[1..]);
      SegmentsAreCauses(ChainOf(texts));
      assert texts == [texts[0]] + texts[1..];
    } else {
      SegmentsAreCauses(ChainOf(texts));
    }
  }
}

=== FILE: values.dfy ===
/**
 * The JavaScript values the serving layer handles, and the JSON-safe values
 * it produces from them.
 */
module JsValues {
  import opened Text

  datatype Option<+T> = None | Some(value: T)

  datatype Result<+T, +E> = Ok(value: T) | Err(error: E)

  /** An optional string option is truthy when it is present and not empty. */
  predicate TruthyString(o: Option<string>) {
    o.Some? && o.value != ""
  }

  /** What `instanceof` and `constructor` tell apart among objects. */
  datatype ObjectKind =
    | PlainObject                    // constructor === Object
    | ContractHandle(target: string) // an ethers Contract, with its `target` address
    | OtherInstance                  // any other class instance (a Date, a Map, ...)

  /**
   * A JavaScript value. Objects carry their own enumerable string-keyed
   * properties in `Object.entries` order.
   */
  datatype Value =
    | Undefined
    | Null
    | Bool(b: bool)
    | Num(n: real)
    | BigInt(i: int)
    | Str(s: string)
    | Symbol
    | Function
    | Array(items: seq<Value>)
    | Object(kind: ObjectKind, props: seq<Prop>)

  datatype Prop = Prop(key: string, value: Value)

  /** A JSON-safe value. An array holds records, since `toJSON` maps every element to a record. */
  datatype Json =
    | JNum(n: real)
    | JStr(s: string)
    | JBool(b: bool)
    | JArray(records: seq<seq<Field>>)
    | JObject(fields: seq<Field>)

  datatype Field = Field(key: string, value: Json)

  function Keys(ps: seq<Prop>): (ks: seq<string>)
    ensures |ks| == |ps| && forall i :: 0 <= i < |ps| ==> ks[i] == ps[i].key
    decreases |ps|
  {
    if ps == [] then [] else [ps[0].key] + Keys(ps[1..])
  }

  function FieldKeys(fs: seq<Field>): (ks: seq<string>)
    ensures |ks| == |fs| && forall i :: 0 <= i < |fs| ==> ks[i] == fs[i].key
  {
    seq(|fs|, i requires 0 <= i < |fs| => fs[i].key)
  }

  /** Property names of one object are distinct. */
  predicate UniqueKeys(ks: seq<string>) {
    forall i, j :: 0 <= i < j < |ks| ==> ks[i] != ks[j]
  }

  /** `obj[k]` for a property that exists. */
  function Lookup(ps: seq<Prop>, k: string): Option<Value> {
    if ps == [] then None
    else if ps[0].key == k then Some(ps[0].value)
    else Lookup(ps[1..], k)
  }

  function LookupField(fs: seq<Field>, k: string): Option<Json> {
    if fs == [] then None
    else if fs[0].key == k then Some(fs[0].value)
    else LookupField(fs[1..], k)
  }

  function Max(a: nat, b: nat): nat {
    if a < b then b else a
  }

  /** Nesting depth of arrays and objects; the measure that bounds the recursion of `toJSON`. */
  function Depth(v: Value): nat
    decreases v, 1
  {
    match v
    case Array(items) => 1 + ItemsDepth(items)
    case Object(_, props) => 1 + PropsDepth(props)
    case _ => 0
  }

  function ItemsDepth(items: seq<Value>): (d: nat)
    ensures forall i :: 0 <= i < |items| ==> Depth(items[i]) <= d
    decreases items, 0
  {
    if items == [] then 0 else Max(Depth(items[0]), ItemsDepth(items[1..]))
  }

  function PropsDepth(ps: seq<Prop>): (d: nat)
    ensures forall i :: 0 <= i < |ps| ==> Depth(ps[i].value) <= d
    decreases ps, 0
  {
    if ps == [] then 0 else Max(Depth(ps[0].value), PropsDepth(ps[1..]))
  }

  lemma {:induction false} PropsDepthAtMost(ps: seq<Prop>, bound: nat)
    requires forall i :: 0 <= i < |ps| ==> Depth(ps[i].value) <= bound
    ensures PropsDepth(ps) <= bound
    decreases |ps|
  {
    if ps != [] {
      PropsDepthAtMost(ps[1..], bound);
    }
  }

  /** The entries of a string: each character, keyed by its index. */
  function IndexedChars(s: string): (ps: seq<Prop>)
    ensures |ps| == |s|
    ensures forall i :: 0 <= i < |s| ==> ps[i] == Prop(NatToDecimal(i), Str([s[i]]))
  {
    seq(|s|, i requires 0 <= i < |s| => Prop(NatToDecimal(i), Str([s[i]])))
  }

  /** The entries of an array: each element, keyed by its index. */
  function IndexedItems(items: seq<Value>): (ps: seq<Prop>)
    ensures |ps| == |items|
    ensures forall i :: 0 <= i < |items| ==> ps[i] == Prop(NatToDecimal(i), items[i])
  {
    seq(|items|, i requires 0 <= i < |items| => Prop(NatToDecimal(i), items[i]))
  }

  /**
   * `Object.entries(v)`: None when it throws (on undefined and null);
   * the indexed characters of a string; the indexed elements of an array;
   * the own properties of an object; nothing for any other value.
   */
  function Entries(v: Value): (r: Option<seq<Prop>>)
    ensures r.None? <==> v.Undefined? || v.Null?
    ensures r.Some? ==> PropsDepth(r.value) <= Depth(v)
    ensures r.Some? ==> forall i :: 0 <= i < |r.value| ==>
      Depth(r.value[i].value) == 0 || Depth(r.value[i].value) < Depth(v)
    ensures v.Str? || v.Array? ==> UniqueKeys(Keys(r.value))
    ensures v.Str? ==> r == Some(IndexedChars(v.s))
    ensures v.Array? ==> r == Some(IndexedItems(v.items))
    ensures v.Object? ==> r == Some(v.props)
    ensures !(v.Undefined? || v.Null? || v.Str? || v.Array? || v.Object?) ==> r == Some([])
  {
    match v
    case Undefined => None
    case Null => None
    case Str(s) =>
      var ps := IndexedChars(s);
      PropsDepthAtMost(ps, 0);
      IndexKeysUnique(ps);
      Some(ps)
    case Array(items) =>
      var ps := IndexedItems(items);
      PropsDepthAtMost(ps, ItemsDepth(items));
      IndexKeysUnique(ps);
      Some(ps)
    case Object(_, props) => Some(props)
    case _ => Some([])
  }

  /** Entries keyed by their own index, "0", "1", ..., have distinct keys. */
  lemma IndexKeysUnique(ps: seq<Prop>)
    requires forall i :: 0 <= i < |ps| ==> ps[i].key == NatToDecimal(i)
    ensures UniqueKeys(Keys(ps))
  {
    forall i, j | 0 <= i < j < |ps|
      ensures Keys(ps)[i] != Keys(ps)[j]
    {
      NatToDecimalInjective(i, j);
    }
  }

  /** `obj[k]` on an object's properties: undefined when the key is absent. */
  function Get(ps: seq<Prop>, k: string): (v: Value)
    ensures Lookup(ps, k).Some? ==> v == Lookup(ps, k).value
    ensures Lookup(ps, k).None? ==> v == Undefined
  {
    match Lookup(ps, k)
    case Some(v) => v
    case None => Undefined
  }

  lemma {:induction false} LookupFindsKeys(ps: seq<Prop>, k: string)
    ensures Lookup(ps, k).Some? <==> k in Keys(ps)
    decreases |ps|
  {
    if ps != [] {
      LookupFindsKeys(ps[1..], k);
      assert Keys(ps) == [ps[0].key] + Keys(ps[1..]);
    }
  }

  /** `{...ps, [p.key]: p.value}`. */
  function Assign(ps: seq<Prop>, p: Prop): seq<Prop>
    decreases |ps|
  {
    if ps == [] then [p]
    else if ps[0].key == p.key then [p] + ps[1..]
    else [ps[0]] + Assign(ps[1..], p)
  }

  /** A key already present keeps its position; a new key goes last. */
  lemma {:induction false} AssignKeys(ps: seq<Prop>, p: Prop)
    ensures p.key in Keys(ps) ==> Keys(Assign(ps, p)) == Keys(ps)
    ensures p.key !in Keys(ps) ==> Keys(Assign(ps, p)) == Keys(ps) + [p.key]
    decreases |ps|
  {
    if ps != [] {
      if ps[0].key == p.key {
        assert ([p] + ps[1..])[1..] == ps[1..];
      } else {
        AssignKeys(ps[1..], p);
        assert ([ps[0]] + Assign(ps[1..], p))[1..] == Assign(ps[1..], p);
        assert p.key in Keys(ps) <==> p.key in Keys(ps[1..]);
      }
    }
  }

  /** The assigned key takes the new value; every other key keeps its value. */
  lemma {:induction false} AssignLookup(ps: seq<Prop>, p: Prop, k: string)
    ensures Lookup(Assign(ps, p), k) == if k == p.key then Some(p.value) else Lookup(ps, k)
    decreases |ps|
  {
    if ps != [] && ps[0].key != p.key {
      AssignLookup(ps[1..], p, k);
      assert Assign(ps, p)[1..] == Assign(ps[1..], p);
    }
  }

  /** Assignment keeps property names distinct. */
  lemma AssignUnique(ps: seq<Prop>, p: Prop)
    requires UniqueKeys(Keys(ps))
    ensures UniqueKeys(Keys(Assign(ps, p)))
  {
    AssignKeys(ps, p);
  }

  /** `{...ps, ...qs}`: the properties of `qs` assigned one by one, in order. */
  function Spread(ps: seq<Prop>, qs: seq<Prop>): seq<Prop>
    decreases |qs|
  {
    if qs == [] then ps else Spread(Assign(ps, qs[0]), qs[1..])
  }

  /** After a spread, a key of `qs` has its value from `qs` (later wins); any other key keeps its value from `ps`. */
  lemma {:induction false} SpreadLookup(ps: seq<Prop>, qs: seq<Prop>, k: string)
    requires UniqueKeys(Keys(qs))
    ensures Lookup(Spread(ps, qs), k) == if k in Keys(qs) then Lookup(qs, k) else Lookup(ps, k)
    decreases |qs|
  {
    if qs != [] {
      assert Keys(qs) == [qs[0].key] + Keys(qs[1..]);
      SpreadLookup(Assign(ps, qs[0]), qs[1..], k);
      AssignLookup(ps, qs[0], k);
      LookupFindsKeys(qs[1..], k);
    }
  }

  /** A spread keeps property names distinct. */
  lemma {:induction false} SpreadUnique(ps: seq<Prop>, qs: seq<Prop>)
    requires UniqueKeys(Keys(ps))
    ensures UniqueKeys(Keys(Spread(ps, qs)))
    decreases |qs|
  {
    if qs != [] {
      AssignUnique(ps, qs[0]);
      SpreadUnique(Assign(ps, qs[0]), qs[1..]);
    }
  }
}
